=== FILE: README.md ===
# NetEnv data layer in Dafny

NetEnv keeps environment variables for named *spaces* and controls who may
read or write them through *roles* granted to *users*. Its server stores
everything in one SQLite file, and `apps/server/db` holds the layer that
owns it:

- **The schema:** six tables with their keys (index.js).
- **Start-up:** the schema script and the seeding of a super-user.
- **Repositories:** Role, User and Space. Each has lookups that load a row
  together with its related rows in one aggregate query, and mutators that
  issue one statement and patch the caller's in-memory copy of the loaded
  record when the statement succeeds.
- **`relational`:** the helper that cleans the aggregated JSON arrays
  (utils.js).

This project models that layer as pure functions over an immutable store,
and proves what each operation does to the store and to the loaded record.

| file | module | contents |
|---|---|---|
| `wrappers.dfy` | `Wrappers` | `Option`, `Result` |
| `seqs.dfy` | `Seqs` | filtering, key uniqueness (`UniqueBy`), lookup by key, row counts per key, in-place row rewriting |
| `aggregate.dfy` | `Aggregate` | the JSON objects an aggregate query yields, `json_group_array` over a LEFT JOIN, and `relational` |
| `store.dfy` | `Store` | the six tables as row sequences in insertion order; the key invariant `Valid`; the reference invariant `Referential`; every INSERT, UPDATE and DELETE a repository issues |
| `user.dfy`, `role.dfy`, `space.dfy` | `User`, `Role`, `Space` | the repositories |
| `bootstrap.dfy` | `Bootstrap` | the `CREATE TABLE IF NOT EXISTS` script and super-user seeding |
| `findings.dfy` | `Findings` | the code as written where it departs from its evident intent |

How the model is put together:

- **Repository calls.** Each call takes the store and returns a `Step`: the
  new store, plus what the call resolves to or the updated copy of the
  record.
- **Statement outcomes.** A statement either succeeds or fails with the
  error its callback would see: a key violation, a reference violation, or
  a syntax error.
- **Foreign keys.** SQLite enforces FOREIGN KEY clauses only while
  `PRAGMA foreign_keys` is on, and the code never turns it on. Every
  statement therefore takes the pragma as a boolean parameter `fk`.
- **Round-trip lemmas.** The `…ThenFind` lemmas relate each mutator to the
  lookup: after a successful call, the patched record equals what a fresh
  load returns. Each states its conditions: the record was loaded from the
  store; for creation the store's keys and references hold; a key change
  is covered only under the pragma; and a role being added exists. With
  the pragma off, as the code runs, each excluded case does occur, and
  "## Left out" names it together with a lemma that exhibits it. Where
  the call appends to a list (`addRole`, `addUser`), they state equality
  up to the order of that list.
- **Order of aggregated lists.** Tables are sequences in insertion order,
  and the model lists aggregated rows in that order.

Where the code and its evident intent part, the repositories model the
intended behaviour. `findings.dfy` models the code as written, and
"## Findings" lists each case.

Passwords are never hashed in this layer. `User.create` states that it
stores the password it is given (user.js:73-74), and seeding passes it the
configured password as it is. The model stores every password exactly as
bound, the super-user's included.

## Model

| member | source | states |
|---|---|---|
| Aggregate.Aggregated | apps/server/db/role.js:37-45 | the aggregated array is exactly the matched objects when the join matched any row, and exactly one all-null placeholder when it matched none |
| Aggregate.Relational | apps/server/db/utils.js:11-13 | an object is kept exactly when its key field is non-null, and the result is never longer than the input |
| Aggregate.RelationalKeepsOrder | apps/server/db/utils.js:12 | the kept objects stay in their original relative order |
| Aggregate.RelationalMultiplicity | apps/server/db/utils.js:12 | an object with a non-null key keeps every one of its occurrences; an object with a null key loses all of them |
| Aggregate.RelationalIdempotent | apps/server/db/utils.js:12 | cleaning an already-cleaned array changes nothing |
| Aggregate.RelationalConcat | apps/server/db/utils.js:12 | cleaning distributes over concatenation of arrays |
| Aggregate.RelationalSingleton | apps/server/db/utils.js:12 | a one-element array keeps its element exactly when the element's key is non-null |
| Aggregate.RelationalAllPresent | apps/server/db/utils.js:12 | an array with no null key comes back unchanged |
| Aggregate.RelationalDropsPlaceholder | apps/server/db/utils.js:4-5 | the lone all-null placeholder decodes to the empty list, so the decoded list is the same whether or not the aggregate added it |
| Store.Valid | apps/server/db/index.js:9-44 | every table keeps its PRIMARY KEY: no two rows of Spaces, EnvVars, Roles, Users share their key column, and no two rows of SpaceAccess or UserRoles share their key pair |
| Store.ValidIffOneRowPerKey | apps/server/db/index.js:10-41 | a store keeps its keys exactly when every key value of every table is held by at most one row |
| Store.Referential | apps/server/db/index.js:17-43 | every FOREIGN KEY clause holds: each variable's space, each grant's space and role, and each membership's user and role exist |
| Store.InsertSpace | apps/server/db/space.js:83 | fails with a key violation exactly when the name is taken; otherwise appends exactly that row and keeps both invariants |
| Store.InsertRole | apps/server/db/role.js:71 | fails with a key violation exactly when the name is taken; otherwise appends exactly that row and keeps both invariants |
| Store.InsertUser | apps/server/db/user.js:86-88 | fails exactly when the email is taken; otherwise appends the row with the password exactly as given, and keeps both invariants |
| Store.InsertEnvVar | apps/server/db/index.js:13-18 | fails exactly when the key is taken anywhere, or when the pragma is on and the space is missing; otherwise appends the row, keeps keys unique, and keeps references when the pragma is on |
| Store.EnvKeyNamesOneSpace | apps/server/db/index.js:14 | in a store that keeps its keys, two variables with the same key are one row, so no two spaces share a key |
| Store.InsertSpaceAccess | apps/server/db/index.js:24-31 | fails exactly when the (space, role) pair is taken, or when the pragma is on and the space or role is missing; otherwise appends the row |
| Store.InsertUserRole | apps/server/db/role.js:120 | fails exactly when the (email, role) pair exists, or when the pragma is on and the user or role is missing; otherwise appends the link, keeps keys unique, and keeps references when the pragma is on |
| Store.DeleteSpace | apps/server/db/space.js:123 | fails only when the pragma is on and a variable or grant names the space; otherwise removes exactly that space's row and touches no other table |
| Store.DeleteRole | apps/server/db/role.js:108 | fails only when the pragma is on and a grant or membership names the role; otherwise removes exactly that row and no other table changes |
| Store.DeleteUser | apps/server/db/user.js:125 | fails only when the pragma is on and a membership names the user; otherwise removes exactly that row and keeps memberships |
| Store.WithoutLink | apps/server/db/role.js:138 | exactly the links other than (email, role) remain |
| Store.DeleteUserRole | apps/server/db/user.js:152 | never fails; afterwards the link is absent, every other link remains, and no other table changes |
| Store.UpdateRoles | apps/server/db/role.js:88-97 | an empty patch is a syntax error; a rename succeeds exactly when the target is free and, under the pragma, the old name is unreferenced; afterwards the table holds the rows with other names plus the renamed row, as many rows as before, the old name gone, and both invariants hold |
| Store.UpdateSpaces | apps/server/db/space.js:98-112 | the same conditions and the same row set as for roles, over Spaces and the tables that point at it |
| Store.RewriteUsers | apps/server/db/user.js:108-110 | the rows with another email stay, each row with the matched email becomes one with the new email and the patched or kept password; a fresh new email keeps the keys unique |
| Store.UpdateUsers | apps/server/db/user.js:105-114 | the same conditions over Users; afterwards the table holds the rows with other emails unchanged plus each matched row with the new email and the patched or kept password, as many rows as before; the old email is gone and no other key changes |
| User.RoleObjFor | apps/server/db/user.js:47-53 | the name object is non-null exactly when a Roles row of that name exists |
| User.JoinedRoles | apps/server/db/user.js:42-56 | the joined objects are empty exactly when the user has no link; every non-null one comes from a link and a role; every link to an existing role appears |
| User.JoinedRolesConcat | apps/server/db/user.js:52-53 | the join over concatenated link tables is the concatenation of the joins |
| User.RolesOf | apps/server/db/user.js:63 | the decoded role list does not depend on the placeholder |
| User.FindByEmail | apps/server/db/user.js:40-68 | null exactly when no row has the email; otherwise the row's password and exactly the roles linked to the user, none null |
| User.Create | apps/server/db/user.js:84-93 | null exactly on a duplicate email, with the store unchanged; otherwise a user with no roles, stored with the given password, invariants kept |
| User.CreateThenFind | apps/server/db/user.js:84-93 | in a store whose references hold, a created user loads back exactly as created |
| User.DeleteThenCreateInheritsRoles | apps/server/db/user.js:84-93 | with the pragma off, a user deleted and created again under its email is returned without roles but loads with the old memberships |
| User.Patched | apps/server/db/user.js:112 | exactly the fields the patch gives change; roles and the rest stay |
| User.Update | apps/server/db/user.js:103-116 | an empty patch changes nothing; the copy changes exactly when the statement succeeds; then Users holds the other users unchanged plus the matched row rewritten with the new email and password, the old email is gone, and only Users changes; invariants kept |
| User.UpdateEmailStrandsRoles | apps/server/db/user.js:103-116 | with the pragma off, changing a member's email succeeds, the copy keeps its roles, and a reload under the new email lists none |
| User.UpdateThenFind | apps/server/db/user.js:103-116 | after an update that keeps the email, or that changes it under the pragma, the patched copy is what a reload under the new email returns |
| User.Delete | apps/server/db/user.js:123-127 | resolves with an error exactly when the pragma is on and the user has links; otherwise the user is gone and the other tables are unchanged |
| User.AddRole | apps/server/db/user.js:135-142 | succeeds exactly when the link is new and, under the pragma, both ends exist; then the link and a `{name}` entry are appended; otherwise nothing changes |
| User.AddMissingRoleDropsOnReload | apps/server/db/user.js:135-142 | with the pragma off, adding a role that does not exist succeeds and the copy lists it, while a reload lists no roles |
| User.AddRoleThenFind | apps/server/db/user.js:135-142 | after adding a role that exists, a reload finds the user with the same email and password and the same roles, each as often as in the patched copy |
| User.DropRole | apps/server/db/user.js:153 | an entry not named after the role keeps every one of its occurrences, an entry named after it loses all of them, and the rest stay in order |
| User.DropRoleConcat | apps/server/db/user.js:153 | dropping a role distributes over concatenated lists |
| User.RemoveRole | apps/server/db/user.js:150-157 | exactly the (email, role) link goes; the copy loses every entry of that role, keeps every other entry as often as before and in order; invariants kept |
| User.JoinedRolesWithoutLink | apps/server/db/user.js:152-153 | deleting the link and filtering the decoded list give the same roles |
| User.RemoveRoleThenFind | apps/server/db/user.js:150-157 | after `removeRole`, the patched copy is what a reload returns |
| Role.UserObjFor | apps/server/db/role.js:39-45 | the member object is non-null exactly when a Users row has that email, and then carries that row's password |
| Role.JoinedMembers | apps/server/db/role.js:35-47 | empty exactly when no membership names the role; every non-null object is a member's row; every member with a Users row appears |
| Role.JoinedMembersConcat | apps/server/db/role.js:44-45 | the join over concatenated link tables is the concatenation of the joins |
| Role.MembersOf | apps/server/db/role.js:53 | the decoded member list does not depend on the placeholder |
| Role.FindByName | apps/server/db/role.js:32-58 | null exactly when no Roles row has the name; otherwise every member is non-null and linked, every linked user is listed, and a role without members has an empty list |
| Role.Create | apps/server/db/role.js:69-77 | null exactly on a duplicate name, with the store unchanged; otherwise a role with no members, and Roles gains exactly that row |
| Role.CreateThenFind | apps/server/db/role.js:69-77 | in a store whose references hold, a created role loads back exactly as created |
| Role.Update | apps/server/db/role.js:86-99 | an empty patch changes nothing; the copy is renamed exactly when the statement succeeds; then Roles holds the other roles plus the renamed row and the old name is gone; the member list is kept; only Roles changes |
| Role.UpdateThenFind | apps/server/db/role.js:86-99 | under the pragma, a renamed role reloads under its new name as the patched copy |
| Role.Delete | apps/server/db/role.js:106-110 | resolves with an error exactly when the pragma is on and the role is referenced; otherwise the role is gone and grants and memberships are untouched |
| Role.AddUser | apps/server/db/role.js:118-128 | succeeds exactly when the link is new and, under the pragma, both ends exist; then both copies grow by the other side; otherwise nothing changes |
| Role.AddUserIsAddRole | apps/server/db/role.js:120-123 | the user's side of `addUser` is `addRole` with the role's name |
| Role.AddUserThenFind | apps/server/db/role.js:118-128 | after a successful `addUser`, reloads find the role with the same members and the user with the same roles as the patched copies, each as often |
| Role.DropUser | apps/server/db/role.js:140 | a member with another email keeps every one of its occurrences, a member with that email loses all of them, and the rest stay in order |
| Role.DropUserConcat | apps/server/db/role.js:140 | dropping a member distributes over concatenated lists |
| Role.RemoveUser | apps/server/db/role.js:136-146 | exactly the one link goes; the role's copy loses every entry of that user and the user's copy every entry of that role; all other entries keep their multiplicity and order |
| Role.JoinedMembersWithoutLink | apps/server/db/role.js:138-140 | deleting the membership and filtering the decoded list give the same members |
| Role.RemoveUserThenFind | apps/server/db/role.js:136-146 | after `removeUser`, both copies are what reloads return |
| Space.JoinedEnvs | apps/server/db/space.js:39-54 | empty exactly when no variable names the space; otherwise exactly the objects of the variables that do |
| Space.JoinedAccess | apps/server/db/space.js:46-55 | empty exactly when no grant names the space; otherwise exactly the objects of the grants that do |
| Space.FindByName | apps/server/db/space.js:34-72 | null exactly when no Spaces row has the name; otherwise exactly the space's variables and grants, all carrying the space's name and a non-null key, and empty lists when there are none |
| Space.JoinedEnvsDistinct | apps/server/db/index.js:14 | under the key constraint, the joined variable objects are pairwise distinct |
| Space.JoinedAccessDistinct | apps/server/db/index.js:28 | under the key constraint, the joined grant objects are pairwise distinct |
| Space.FindByNameListsEachOnce | apps/server/db/space.js:54-55 | a loaded space lists each variable and each grant once, however many of the other kind it has |
| Space.Create | apps/server/db/space.js:81-88 | null exactly on a duplicate name, with the store unchanged; otherwise `{name, envs: [], access: []}`, and Spaces gains exactly that row |
| Space.CreateThenFind | apps/server/db/space.js:81-88 | in a store whose references hold, a created space loads back exactly as created |
| Space.Update | apps/server/db/space.js:96-114 | an empty patch changes nothing; the copy is renamed exactly when the statement succeeds; then Spaces holds the other spaces plus the renamed row and the old name is gone; variables and grants are kept; only Spaces changes |
| Space.UpdateThenFind | apps/server/db/space.js:96-114 | under the pragma, a renamed space reloads under its new name as the patched copy |
| Space.Delete | apps/server/db/space.js:121-125 | resolves with an error exactly when the pragma is on and the space is referenced; otherwise the space is gone and its variables and grants are untouched |
| Seqs.UniqueByIffKeyCount | apps/server/db/index.js:28 | no two rows share a key exactly when no key is counted more than once |
| Seqs.UniqueKeyCount | apps/server/db/index.js:34 | under a key constraint each key occurs once when present and not at all otherwise |
| Bootstrap.Exec | apps/server/db/index.js:8-45 | statements run in order up to the first one that does not parse, and only their tables come into being; rows are never touched; the error is reported exactly when some statement fails |
| Bootstrap.ExecAllParse | apps/server/db/index.js:8-45 | a script whose statements all parse creates exactly the tables it names |
| Bootstrap.ExecStopsAt | apps/server/db/index.js:8-45 | a script that fails at statement k creates exactly the tables named before k, keeps every row, and reports a syntax error |
| Bootstrap.SchemaCreatesAll | apps/server/db/index.js:9-44 | the schema script, run on any database, yields all six tables and keeps every row |
| Bootstrap.SchemaIdempotent | apps/server/db/index.js:9 | running the schema script again changes nothing |
| Bootstrap.InitSuper | apps/server/db/index.js:48-53 | afterwards the super-user exists; an existing account is left alone; otherwise exactly one row with the configured password is added; in a store that keeps its keys exactly one row has the email |
| Bootstrap.InitSuperTwice | apps/server/db/index.js:49-51 | seeding twice, even with another password, leaves what seeding once did, with exactly one row for the email |
| Bootstrap.StartupFromEmpty | apps/server/db/index.js:8-54 | from an empty file, start-up yields all six tables and a Users table holding only the super-user |
| Findings.RoleFindByNameMissesStoredRole | apps/server/db/role.js:40 | a stored role is found by the corrected fetch and missed by the fetch as written |
| Findings.UserFindByEmailMissesStoredUser | apps/server/db/user.js:54 | a stored user is found by the corrected fetch and missed by the fetch as written |
| Findings.SpaceFindByNameMissesStoredSpace | apps/server/db/space.js:50 | a stored space is found by the corrected fetch and missed by the fetch as written |
| Findings.SpaceCrossJoinFetch | apps/server/db/space.js:53-57 | the double-join fetch lists the same variables and grants as the corrected one, as a set |
| Findings.SpaceCrossJoinMultiplies | apps/server/db/space.js:54-55 | the double-join fetch lists each variable of the corrected fetch as many times in a row as the space has grants (at least once), and the whole grant list once per variable (at least once) |
| Findings.SpaceCrossJoinDuplicates | apps/server/db/space.js:54-55 | two variables and two grants come back as four variables |
| Findings.SpaceRenameIgnored | apps/server/db/space.js:104 | renaming "prod" to "live" changes the store under the corrected update and not under the update as written |
| Findings.SchemaAsWrittenLacksUsers | apps/server/db/index.js:33-36 | on any database, the schema script as written stops with a syntax error, adds only Spaces, EnvVars, Roles and SpaceAccess, and keeps every row; Users stays absent when it was |
| Findings.InitSuperAsWrittenSeedsNothing | apps/server/db/index.js:48-52 | from an empty store, seeding as written creates no super-user and the corrected seeding creates one |
| Findings.SeedingWithBrokenLookup | apps/server/db/index.js:49-51 | seeding that always attempts the insert has the same effect as seeding that looks first |

## Left out

- sqlite3 I/O and the `Database` handle are not modelled. The text of each SQL statement is not modelled either: every statement is reduced to its effect on the store.
- JSON encoding and `JSON.parse` are left out. An aggregated array is modelled directly as a sequence of objects with nullable fields.
- Promises and async plumbing are left out. Each repository call is one atomic step. Where the code calls `resolve` twice, the first call wins, and that value is modelled.
- Several callbacks go on to dereference a missing row after `resolve(null)`. The exception this raises is outside the promise and is not modelled.
- Errors other than key, reference and syntax errors are not modelled: I/O errors, a busy database, constraint failures SQLite reports for other reasons.
- NULL keys are not modelled. Every column is NOT NULL or part of a key, and the callers always bind strings.
- Concurrency is left out. That includes races between two copies of the same record loaded separately, and the staleness of one copy after another copy's update.
- Password hashing: `apps/server/utils/hasher.js` is not part of this model. Neither `create` nor seeding calls it.
- `apps/server/config.js` is not part of this model. The super-user's email and password are parameters.
- `apps/server/index.js`, the HTTP server, is not part of this model.
- The repositories have no methods that add or remove env vars or access grants. `Store.InsertEnvVar` and `Store.InsertSpaceAccess` exist only to state what those tables' constraints accept.
- Patches carry only the table's own columns. `update(data)` in the code accepts any object, and a field that is not a column makes the statement fail, which is not modelled.
- Role.AddUser: the code pushes the whole `user.data` record, roles included, into the role's list. It also pushes the whole `role.data` record, member list included, into the user's list. The model appends only the `{email, password}` and `{name}` objects that a reload returns.
- Role.FindByName: besides the comma in Findings, line 53 of role.js stores the list under `roles`, leaving `users` as the raw JSON text. The model stores the list under `users`.
- Space.FindByName: besides the comma and the double join in Findings, space.js:65 reads `row.envs`, which is undefined because the column is named `vars`. It also stores the Promise that `relational` returns. The model decodes `vars` and `access` synchronously.
- Order of aggregated lists: the aggregate queries have no ORDER BY, so SQLite may return related rows in any order, for instance by the UserRoles key index. The model fixes insertion order, so its lookups return one of the orders SQLite may produce.
- User.AddRoleThenFind: states that the reload equals the patched copy up to the order of the roles. The copy appends the new role at the end, while a reload may list it elsewhere. It is also stated only for a role that exists: with the pragma off, adding a missing role succeeds and the copy lists it, but a reload drops the dangling link (`User.AddMissingRoleDropsOnReload`).
- Role.AddUserThenFind: states both reloads up to the order of their lists, for the same reason.
- User.CreateThenFind: stated only for a store whose references hold. With the pragma off, `delete` keeps a user's memberships, and a user created again under that email loads with them while `create` returns it without roles (`User.DeleteThenCreateInheritsRoles`).
- Role.CreateThenFind: stated only for a store whose references hold, for the same reason: memberships and grants left behind by a deleted role of that name reappear on reload.
- Space.CreateThenFind: stated only for a store whose references hold: variables and grants left behind by a deleted space of that name reappear on reload.
- User.UpdateThenFind: an email change is covered only with the pragma on. With it off, the memberships stay on the old email, so the renamed copy keeps its roles while a reload under the new email has none (`User.UpdateEmailStrandsRoles`).
- Role.UpdateThenFind: stated only with the pragma on. With it off, a rename leaves memberships and grants pointing at the old name, so a reload under the new name no longer shows the members that the updated copy lists.
- Space.UpdateThenFind: stated only with the pragma on. With it off, a rename leaves variables and grants pointing at the old name, so a reload under the new name no longer shows the ones the updated copy lists.

## Findings

| source | as written | input that shows it | evidently intended | confidence | as-written member | corrected member |
|---|---|---|---|---|---|---|
| apps/server/db/role.js:40 | `json_object('email', Users.email, 'password', Users.password,)`: the trailing comma is a syntax error, so `findByName` always yields null | a store holding the role "admin": `findByName("admin")` yields null | the query without the comma, which returns the role and its members | high; not executed | Findings.RoleFindByNameAsWritten | Role.FindByName |
| apps/server/db/user.js:54 | `WHERE email = ?` where both Users and UserRoles have an `email` column, so SQLite rejects the query as ambiguous and `findByEmail` always yields null (line 63 also reads the undeclared `row`) | a store holding the user "a@x": `findByEmail("a@x")` yields null | `WHERE Users.email = ?`, with the list decoded from `r.roles` | high; not executed | Findings.UserFindByEmailAsWritten | User.FindByEmail |
| apps/server/db/space.js:50 | `json_object(..., 'write', SpaceAccess.write,)`: the trailing comma is a syntax error, so `findSpaceByName` always yields null | a store holding the space "prod": `findSpaceByName("prod")` yields null | the query without the comma | high; not executed | Findings.SpaceFindByNameAsWritten | Space.FindByName |
| apps/server/db/space.js:54-55 | two LEFT JOINs in one grouped query, so each group holds the product of the variables and the grants | space "prod" with variables A and B and grants to "dev" and "ops": four variables come back | each list aggregated on its own, every variable and grant listed once | high; not executed | Findings.SpaceCrossJoinFetch | Space.FindByName |
| apps/server/db/space.js:104 | the SET list is built with `'$' + v`, so the statement names a parameter after the new value while the bound object holds `$name` | renaming "prod" to "live": the driver reports the unused `$name`, and nothing changes | `'$' + k`, as role.js and user.js write it | medium; not executed | Findings.SpaceUpdateAsWritten | Space.Update |
| apps/server/db/index.js:35 | the Users column list ends in a comma (and UserRoles' at line 43), so `db.exec` stops there with a syntax error; with no callback, node-sqlite3 emits it as an 'error' event nobody listens to, which most likely ends the process at start-up | any start-up: Users and UserRoles are never created | both statements without the trailing comma | high; not executed | Findings.SchemaAsWrittenLacksUsers | Bootstrap.SchemaCreatesAll |
| apps/server/db/index.js:3 | imports `createUser` and `getUserByEmail`, which user.js does not export (it exports the class `User`), so seeding never reaches the database | any start-up: no super-user account exists afterwards | `User.findByEmail` and `User.create` | medium; not executed | Findings.InitSuperAsWritten | Bootstrap.InitSuper |

=== FILE: aggregate.dfy ===
/** Decoding of aggregate fetches (apps/server/db/utils.js).

    A fetch selects a root row together with `json_group_array(json_object(...))`
    over a LEFT JOIN. Each array element is an object whose fields are the
    joined columns, any of which may be `null`: when the join finds nothing
    the array holds one object with every field `null` (the placeholder), and
    a join row whose inner table has no matching row contributes such an
    object too. `Relational` removes them. */
module Aggregate {
  import opened Wrappers
  import opened Seqs

  /** The JSON shapes the aggregate queries produce: `IUser`, `IRole`, `IEnv`
      and `ISAccess`, each column nullable as `json_object` leaves it. */
  datatype UserObj = UserObj(email: Option<string>, password: Option<string>)
  datatype RoleObj = RoleObj(name: Option<string>)
  datatype EnvObj = EnvObj(envKey: Option<string>, envValue: Option<string>, spaceName: Option<string>)
  datatype AccessObj = AccessObj(spaceName: Option<string>, roleName: Option<string>, write: Option<int>)

  /** The all-null objects an unmatched LEFT JOIN row turns into. */
  const UserPlaceholder := UserObj(None, None)
  const RolePlaceholder := RoleObj(None)
  const EnvPlaceholder := EnvObj(None, None, None)
  const AccessPlaceholder := AccessObj(None, None, None)

  /** Field selectors, the `key` argument `relational` is called with. */
  function UserEmail(o: UserObj): Option<string> { o.email }
  function RoleName(o: RoleObj): Option<string> { o.name }
  function EnvKeyOf(o: EnvObj): Option<string> { o.envKey }
  function AccessSpace(o: AccessObj): Option<string> { o.spaceName }

  /** `json_group_array` over the rows of a LEFT JOIN: the objects of the
      matched rows, or a single placeholder when no row matched. */
  function Aggregated<T>(matched: seq<T>, placeholder: T): (arr: seq<T>)
    ensures |arr| >= 1
    ensures |matched| > 0 ==> arr == matched
    ensures |matched| == 0 ==> arr == [placeholder]
  {
    if |matched| == 0 then [placeholder] else matched
  }

  /** `relational(arr, key)`: drop every object whose `key` field is null.
      The source returns a Promise of this list (the function is `async`);
      the model returns the list. */
  function Relational<T(!new), V>(arr: seq<T>, key: T -> Option<V>): (r: seq<T>)
    ensures |r| <= |arr|
    ensures forall x :: x in r <==> x in arr && key(x).Some?
  {
    Filter(arr, x => key(x).Some?)
  }

  /** The kept objects appear in their original relative order. */
  lemma RelationalKeepsOrder<T(!new), V>(arr: seq<T>, key: T -> Option<V>)
    ensures SubseqOf(Relational(arr, key), arr)
  {
    FilterIsSubseq(arr, x => key(x).Some?);
  }

  /** Every object with a non-null key survives as many times as it occurs;
      every object with a null key disappears. */
  lemma RelationalMultiplicity<T(!new), V>(arr: seq<T>, key: T -> Option<V>, x: T)
    ensures multiset(Relational(arr, key))[x] == if key(x).Some? then multiset(arr)[x] else 0
  {
    FilterMultiplicity(arr, x => key(x).Some?, x);
  }

  /** Filtering the decoded list again changes nothing. */
  lemma RelationalIdempotent<T(!new), V>(arr: seq<T>, key: T -> Option<V>)
    ensures Relational(Relational(arr, key), key) == Relational(arr, key)
  {
    FilterAllPass(Relational(arr, key), x => key(x).Some?);
  }

  /** Decoding distributes over concatenation of the aggregated array. */
  lemma RelationalConcat<T(!new), V>(a: seq<T>, b: seq<T>, key: T -> Option<V>)
    ensures Relational(a + b, key) == Relational(a, key) + Relational(b, key)
  {
    FilterConcat(a, b, x => key(x).Some?);
  }

  lemma RelationalSingleton<T(!new), V>(x: T, key: T -> Option<V>)
    ensures Relational([x], key) == if key(x).Some? then [x] else []
  {
    FilterSingleton(x, x => key(x).Some?);
  }

  /** An array holding only non-null-keyed objects decodes to itself. */
  lemma RelationalAllPresent<T(!new), V>(arr: seq<T>, key: T -> Option<V>)
    requires forall x :: x in arr ==> key(x).Some?
    ensures Relational(arr, key) == arr
  {
    FilterAllPass(arr, x => key(x).Some?);
  }

  /** The lone placeholder of an empty join decodes to the empty list, and
      so it does not matter whether the aggregate inserted it. */
  lemma RelationalDropsPlaceholder<T(!new), V>(matched: seq<T>, placeholder: T, key: T -> Option<V>)
    requires key(placeholder).None?
    ensures Relational([placeholder], key) == []
    ensures Relational(Aggregated(matched, placeholder), key) == Relational(matched, key)
  {
    assert placeholder !in Relational([placeholder], key);
  }
}

=== FILE: bootstrap.dfy ===
/** Start-up of the database module (apps/server/db/index.js): the schema
    script of `CREATE TABLE IF NOT EXISTS` statements and the seeding of the
    super-user account. The key and reference clauses of the schema are the
    `Store.Valid` and `Store.Referential` invariants. */
module Bootstrap {
  import opened Wrappers
  import opened Seqs
  import opened Store
  import User

  datatype Table = Spaces | EnvVars | Roles | SpaceAccess | Users | UserRoles

  const AllTables: set<Table> := {Spaces, EnvVars, Roles, SpaceAccess, Users, UserRoles}

  /** One `CREATE TABLE IF NOT EXISTS` statement; `parses` is false when its
      column list does not parse. */
  datatype CreateTable = CreateTable(table: Table, parses: bool)

  /** A database file: the tables that exist, and the rows of the store. */
  datatype Database = Database(tables: set<Table>, rows: Store)

  /** What `db.exec` leaves behind: the database, and the error its callback
      would receive. */
  datatype Run = Run(db: Database, error: Option<SqlError>)

  /** Statement `i` runs: every statement up to and including it parses. */
  ghost predicate Reached(script: seq<CreateTable>, i: int) {
    0 <= i < |script| && forall j :: 0 <= j <= i ==> script[j].parses
  }

  /** `db.exec(script)`: the statements run in order until one fails, and
      the ones before it keep their effect (there is no enclosing
      transaction). `IF NOT EXISTS` makes creating an existing table a
      no-op, so no statement touches a row. */
  function Exec(d: Database, script: seq<CreateTable>): (r: Run)
    ensures r.db.rows == d.rows
    ensures r.error.None? <==> forall i :: 0 <= i < |script| ==> script[i].parses
    ensures r.error.Some? ==> r.error.value == SyntaxError
    ensures forall t :: t in r.db.tables <==>
      t in d.tables || exists i :: Reached(script, i) && script[i].table == t
    decreases |script|
  {
    if |script| == 0 then Run(d, None)
    else if !script[0].parses then
      assert forall i :: !Reached(script, i) by {
        forall i ensures !Reached(script, i) {
          if 0 <= i < |script| { assert 0 <= 0 <= i; }
        }
      }
      Run(d, Some(SyntaxError))
    else
      var rest := script[1..];
      var d' := d.(tables := d.tables + {script[0].table});
      var r := Exec(d', rest);
      assert forall i :: 1 <= i < |script| ==> (Reached(script, i) <==> Reached(rest, i - 1)) by {
        forall i | 1 <= i < |script| ensures Reached(script, i) <==> Reached(rest, i - 1) {
          if Reached(rest, i - 1) {
            forall j | 0 <= j <= i ensures script[j].parses {
              if j > 0 { assert script[j] == rest[j - 1]; }
            }
          }
          if Reached(script, i) {
            forall j | 0 <= j <= i - 1 ensures rest[j].parses {
              assert rest[j] == script[j + 1];
            }
          }
        }
      }
      assert (forall i :: 0 <= i < |script| ==> script[i].parses) <==>
             (forall i :: 0 <= i < |rest| ==> rest[i].parses) by {
        if forall i :: 0 <= i < |rest| ==> rest[i].parses {
          forall i | 0 <= i < |script| ensures script[i].parses {
            if i > 0 { assert script[i] == rest[i - 1]; }
          }
        }
        if forall i :: 0 <= i < |script| ==> script[i].parses {
          forall i | 0 <= i < |rest| ensures rest[i].parses {
            assert rest[i] == script[i + 1];
          }
        }
      }
      assert Reached(script, 0);
      forall i | Reached(rest, i) ensures Reached(script, i + 1) && script[i + 1].table == rest[i].table {
        assert script[i + 1] == rest[i];
      }
      r
  }

  /** The schema script as index.js:8-45 writes it: the Users and UserRoles
      statements end their column lists with a comma (index.js:35,43), which
      SQLite rejects. See `Findings.SchemaAsWrittenLacksUsers`. */
  const ScriptAsWritten: seq<CreateTable> := [
    CreateTable(Spaces, true), CreateTable(EnvVars, true), CreateTable(Roles, true),
    CreateTable(SpaceAccess, true), CreateTable(Users, false), CreateTable(UserRoles, false)]

  /** The same six statements with the stray commas removed. */
  const Script: seq<CreateTable> := [
    CreateTable(Spaces, true), CreateTable(EnvVars, true), CreateTable(Roles, true),
    CreateTable(SpaceAccess, true), CreateTable(Users, true), CreateTable(UserRoles, true)]

  /** A script whose every statement parses creates exactly the tables it
      names, in addition to those already there. */
  lemma ExecAllParse(d: Database, script: seq<CreateTable>)
    requires forall i :: 0 <= i < |script| ==> script[i].parses
    ensures Exec(d, script) == Run(Database(d.tables + set i | 0 <= i < |script| :: script[i].table, d.rows), None)
  {
    var r := Exec(d, script);
    forall i | 0 <= i < |script| ensures Reached(script, i) { }
    assert r.db.tables == d.tables + set i | 0 <= i < |script| :: script[i].table;
  }

  /** A script that parses up to statement `k` and fails there creates the
      tables named before `k`, keeps every row, and reports the error. */
  lemma ExecStopsAt(d: Database, script: seq<CreateTable>, k: int)
    requires 0 <= k < |script| && !script[k].parses
    requires forall i :: 0 <= i < k ==> script[i].parses
    ensures Exec(d, script) == Run(Database(d.tables + set i | 0 <= i < k :: script[i].table, d.rows), Some(SyntaxError))
  {
    var r := Exec(d, script);
    forall i | 0 <= i < k ensures Reached(script, i) { }
    forall i | k <= i < |script| ensures !Reached(script, i) {
      assert 0 <= k <= i;
    }
    assert r.db.tables == d.tables + set i | 0 <= i < k :: script[i].table;
  }

  /** The schema script creates every table, whatever already exists, and
      keeps every row. */
  lemma SchemaCreatesAll(d: Database)
    ensures Exec(d, Script) == Run(Database(d.tables + AllTables, d.rows), None)
  {
    TablesOfScript();
    ExecAllParse(d, Script);
  }

  lemma TablesOfScript()
    ensures forall i :: 0 <= i < |Script| ==> Script[i].parses
    ensures (set i | 0 <= i < |Script| :: Script[i].table) == AllTables
  {
    var named := set i | 0 <= i < |Script| :: Script[i].table;
    assert Script[0].table == Spaces && Script[1].table == EnvVars && Script[2].table == Roles;
    assert Script[3].table == SpaceAccess && Script[4].table == Users && Script[5].table == UserRoles;
    assert named == AllTables;
  }

  /** `IF NOT EXISTS`: running the schema script again changes nothing. */
  lemma SchemaIdempotent(d: Database)
    ensures Exec(Exec(d, Script).db, Script) == Exec(d, Script)
  {
    SchemaCreatesAll(d);
    SchemaCreatesAll(Exec(d, Script).db);
    assert d.tables + AllTables + AllTables == d.tables + AllTables;
  }

  /** `initSuper` (index.js:48-53) with a lookup that works: look the
      configured email up and create the account only when it is missing.
      The password is stored as configured; nothing hashes it. `email` and
      `password` stand for `config.superuser.email` and `.pass`. */
  function InitSuper(s: Store, email: string, password: string): (r: Store)
    ensures HasUser(r, email)
    ensures HasUser(s, email) ==> r == s
    ensures !HasUser(s, email) ==> r == s.(users := s.users + [UserRow(email, password)])
    ensures Valid(s) ==> Valid(r) && KeyCount(r.users, UserKey, email) == 1
    ensures Referential(s) ==> Referential(r)
  {
    var r := if User.FindByEmail(s, email).Some? then s else User.Create(s, email, password).store;
    assert UserRow(email, password) in s.users + [UserRow(email, password)];
    assert Valid(s) ==> KeyCount(r.users, UserKey, email) == 1 by {
      if Valid(s) { UniqueKeyCount(r.users, UserKey, email); }
    }
    r
  }

  /** Seeding twice in sequence, even with another password the second
      time, leaves what seeding once left: one account with that email and
      the first password. */
  lemma {:induction false} InitSuperTwice(s: Store, email: string, password: string, password2: string)
    ensures InitSuper(InitSuper(s, email, password), email, password2) == InitSuper(s, email, password)
    ensures Valid(s) ==> KeyCount(InitSuper(InitSuper(s, email, password), email, password2).users, UserKey, email) == 1
  {
    var s1 := InitSuper(s, email, password);
    assert HasUser(s1, email);
  }

  /** Start-up as a whole: from an empty file, the schema script and then
      seeding give a database holding only the super-user. */
  lemma StartupFromEmpty(email: string, password: string)
    ensures Exec(Database({}, Empty), Script).db.tables == AllTables
    ensures InitSuper(Exec(Database({}, Empty), Script).db.rows, email, password).users == [UserRow(email, password)]
  {
    SchemaCreatesAll(Database({}, Empty));
    assert !HasUser(Empty, email);
  }
}

=== FILE: findings.dfy ===
/** The code as written where it departs from what it evidently intends.
    Each member here models one such place literally, next to a concrete
    input on which it and the corrected member of the repository modules
    disagree. The rest of the model uses the corrected members. */
module Findings {
  import opened Wrappers
  import opened Seqs
  import opened Aggregate
  import opened Store
  import User
  import Role
  import Space
  import Bootstrap

  // ------------------------------------------------ fetches that never parse

  /** `Role.findByName` as written: `json_object('email', ..., 'password',
      Users.password,)` (role.js:38-41) does not parse, so `db.get` reports
      the error with no row and the first `resolve(null)` wins (role.js:49),
      whatever the store holds. */
  function RoleFindByNameAsWritten(s: Store, name: string): (r: Option<Role.RoleData>)
    ensures r.None?
  {
    None
  }

  /** A stored role that the fetch as written cannot find. */
  lemma RoleFindByNameMissesStoredRole()
    ensures var s := Empty.(roles := [RoleRow("admin")]);
      && RoleFindByNameAsWritten(s, "admin").None?
      && Role.FindByName(s, "admin") == Some(Role.RoleData("admin", []))
  {
    var s := Empty.(roles := [RoleRow("admin")]);
    assert RoleRow("admin") in s.roles;
    assert HasRole(s, "admin");
  }

  /** `User.findByEmail` as written: `WHERE email = ?` (user.js:54) names a
      column both Users and UserRoles hold, which SQLite rejects as
      ambiguous, so the callback receives no row and resolves null
      (user.js:57). Had it a row, line 63 would throw on the undeclared
      `row`. */
  function UserFindByEmailAsWritten(s: Store, email: string): (r: Option<User.UserData>)
    ensures r.None?
  {
    None
  }

  lemma UserFindByEmailMissesStoredUser()
    ensures var s := Empty.(users := [UserRow("a@x", "pw")]);
      && UserFindByEmailAsWritten(s, "a@x").None?
      && User.FindByEmail(s, "a@x") == Some(User.UserData("a@x", "pw", []))
  {
    var s := Empty.(users := [UserRow("a@x", "pw")]);
    assert UserRow("a@x", "pw") in s.users;
    assert !UserReferenced(s, "a@x");
  }

  /** `Space.findSpaceByName` as written: the grant object's argument list
      ends in a comma (space.js:50), so the query does not parse and the
      call resolves null (space.js:59). */
  function SpaceFindByNameAsWritten(s: Store, name: string): (r: Option<Space.SpaceData>)
    ensures r.None?
  {
    None
  }

  lemma SpaceFindByNameMissesStoredSpace()
    ensures var s := Empty.(spaces := [SpaceRow("prod")]);
      && SpaceFindByNameAsWritten(s, "prod").None?
      && Space.FindByName(s, "prod") == Some(Space.SpaceData("prod", [], []))
  {
    var s := Empty.(spaces := [SpaceRow("prod")]);
    assert SpaceRow("prod") in s.spaces;
  }

  // --------------------------------------------- the space fetch's product

  /** `k` copies of `x`. */
  function Repeat<T(!new)>(x: T, k: nat): (r: seq<T>)
    ensures |r| == k
    ensures forall y :: y in r ==> y == x
  {
    if k == 0 then [] else [x] + Repeat(x, k - 1)
  }

  /** Each element of `xs` repeated `k` times in place: the left column of a
      nested-loop join whose inner side has `k` rows. */
  function RepeatEach<T(!new)>(xs: seq<T>, k: nat): (r: seq<T>)
    ensures |r| == |xs| * k
    ensures forall y :: y in r ==> y in xs
    ensures k > 0 ==> forall x :: x in xs ==> x in r
    decreases |xs|
  {
    if |xs| == 0 then []
    else
      var rest := RepeatEach(xs[1..], k);
      assert |xs| * k == k + |xs[1..]| * k;
      assert forall x :: x in xs <==> x == xs[0] || x in xs[1..];
      assert k > 0 ==> xs[0] in Repeat(xs[0], k) by {
        if k > 0 { assert Repeat(xs[0], k)[0] == xs[0]; }
      }
      Repeat(xs[0], k) + rest
  }

  /** `xs` repeated `k` times over: the right column of the same join. */
  function RepeatAll<T(!new)>(xs: seq<T>, k: nat): (r: seq<T>)
    ensures |r| == |xs| * k
    ensures forall y :: y in r ==> y in xs
    ensures k > 0 ==> forall x :: x in xs ==> x in r
  {
    if k == 0 then []
    else
      assert |xs| * k == |xs| + |xs| * (k - 1);
      xs + RepeatAll(xs, k - 1)
  }

  /** `Space.findSpaceByName` with the comma removed and `vars` decoded
      synchronously, but still with both LEFT JOINs in one FROM clause
      (space.js:53-57): the group holds one row per (variable, grant) pair,
      so each column is aggregated over the product. */
  function SpaceCrossJoinFetch(s: Store, name: string): (r: Option<Space.SpaceData>)
    ensures r.None? <==> !HasSpace(s, name)
    ensures r.Some? ==> forall o :: o in r.value.envs <==> o in Space.JoinedEnvs(s.envVars, name)
    ensures r.Some? ==> forall o :: o in r.value.access <==> o in Space.JoinedAccess(s.spaceAccess, name)
  {
    if !HasSpace(s, name) then None
    else
      var ev := Aggregated(Space.JoinedEnvs(s.envVars, name), EnvPlaceholder);
      var ac := Aggregated(Space.JoinedAccess(s.spaceAccess, name), AccessPlaceholder);
      Some(Space.SpaceData(name,
                           Relational(RepeatEach(ev, |ac|), EnvKeyOf),
                           Relational(RepeatAll(ac, |ev|), AccessSpace)))
  }

  /** Decoding commutes with the repetition of the join. */
  lemma {:induction false} RelationalRepeatEach<T(!new), V>(xs: seq<T>, k: nat, key: T -> Option<V>)
    ensures Relational(RepeatEach(xs, k), key) == RepeatEach(Relational(xs, key), k)
    decreases |xs|
  {
    if |xs| > 0 {
      var tail := xs[1..];
      RelationalRepeatEach(tail, k, key);
      assert RepeatEach(xs, k) == Repeat(xs[0], k) + RepeatEach(tail, k);
      RelationalConcat(Repeat(xs[0], k), RepeatEach(tail, k), key);
      RelationalRepeat(xs[0], k, key);
      assert xs == [xs[0]] + tail;
      RelationalConcat([xs[0]], tail, key);
      RelationalSingleton(xs[0], key);
      var f := Relational(xs, key);
      if key(xs[0]).Some? {
        assert f == [xs[0]] + Relational(tail, key);
        assert f[0] == xs[0] && f[1..] == Relational(tail, key);
        assert RepeatEach(f, k) == Repeat(xs[0], k) + RepeatEach(Relational(tail, key), k);
      } else {
        assert f == Relational(tail, key);
      }
    }
  }

  lemma {:induction false} RelationalRepeat<T(!new), V>(x: T, k: nat, key: T -> Option<V>)
    ensures Relational(Repeat(x, k), key) == if key(x).Some? then Repeat(x, k) else []
  {
    if k > 0 {
      RelationalRepeat(x, k - 1, key);
      RelationalConcat([x], Repeat(x, k - 1), key);
      RelationalSingleton(x, key);
    }
  }

  lemma {:induction false} RelationalRepeatAll<T(!new), V>(xs: seq<T>, k: nat, key: T -> Option<V>)
    ensures Relational(RepeatAll(xs, k), key) == RepeatAll(Relational(xs, key), k)
  {
    if k > 0 {
      RelationalRepeatAll(xs, k - 1, key);
      RelationalConcat(xs, RepeatAll(xs, k - 1), key);
    }
  }

  /** The fetch as written lists every variable once per grant of the space,
      each variable's copies side by side, and the whole grant list once per
      variable, where the corrected fetch lists each once. */
  lemma SpaceCrossJoinMultiplies(s: Store, name: string)
    requires HasSpace(s, name)
    ensures var grants := |Space.JoinedAccess(s.spaceAccess, name)|;
      SpaceCrossJoinFetch(s, name).value.envs ==
        RepeatEach(Space.FindByName(s, name).value.envs, if grants == 0 then 1 else grants)
    ensures var vars := |Space.JoinedEnvs(s.envVars, name)|;
      SpaceCrossJoinFetch(s, name).value.access ==
        RepeatAll(Space.FindByName(s, name).value.access, if vars == 0 then 1 else vars)
    ensures var grants := |Space.JoinedAccess(s.spaceAccess, name)|;
      |SpaceCrossJoinFetch(s, name).value.envs| ==
        |Space.FindByName(s, name).value.envs| * (if grants == 0 then 1 else grants)
    ensures var vars := |Space.JoinedEnvs(s.envVars, name)|;
      |SpaceCrossJoinFetch(s, name).value.access| ==
        |Space.FindByName(s, name).value.access| * (if vars == 0 then 1 else vars)
  {
    var je := Space.JoinedEnvs(s.envVars, name);
    var ja := Space.JoinedAccess(s.spaceAccess, name);
    var ev := Aggregated(je, EnvPlaceholder);
    var ac := Aggregated(ja, AccessPlaceholder);
    RelationalRepeatEach(ev, |ac|, EnvKeyOf);
    RelationalRepeatAll(ac, |ev|, AccessSpace);
    RelationalDropsPlaceholder(je, EnvPlaceholder, EnvKeyOf);
    RelationalDropsPlaceholder(ja, AccessPlaceholder, AccessSpace);
  }

  /** Two variables and two grants: four variables come back instead of
      two. */
  lemma SpaceCrossJoinDuplicates()
    ensures var s := Empty.(
        spaces := [SpaceRow("prod")],
        roles := [RoleRow("dev"), RoleRow("ops")],
        envVars := [EnvVarRow("A", "1", "prod"), EnvVarRow("B", "2", "prod")],
        spaceAccess := [AccessRow("prod", "dev", 0), AccessRow("prod", "ops", 1)]);
      && HasSpace(s, "prod")
      && |SpaceCrossJoinFetch(s, "prod").value.envs| == 4
      && |Space.FindByName(s, "prod").value.envs| == 2
  {
    var s := Empty.(
        spaces := [SpaceRow("prod")],
        roles := [RoleRow("dev"), RoleRow("ops")],
        envVars := [EnvVarRow("A", "1", "prod"), EnvVarRow("B", "2", "prod")],
        spaceAccess := [AccessRow("prod", "dev", 0), AccessRow("prod", "ops", 1)]);
    assert SpaceRow("prod") in s.spaces;
    var je := Space.JoinedEnvs(s.envVars, "prod");
    var ja := Space.JoinedAccess(s.spaceAccess, "prod");
    assert s.envVars[1..] == [EnvVarRow("B", "2", "prod")];
    assert s.spaceAccess[1..] == [AccessRow("prod", "ops", 1)];
    assert |je| == 2 && |ja| == 2;
    SpaceCrossJoinMultiplies(s, "prod");
    var ev := Aggregated(je, EnvPlaceholder);
    RelationalDropsPlaceholder(je, EnvPlaceholder, EnvKeyOf);
    RelationalAllPresent(je, EnvKeyOf);
  }

  // ------------------------------------------------ the space rename

  /** `space.update(data)` as written (space.js:101-108): the SET list
      reads `name = $` followed by the new name itself, while the only
      parameters bound are `$qname` and `$name`. The statement names the
      bound `$name` only when the new name is the word `name`; for any
      other name a bound parameter is missing from the statement, the
      driver reports the error, and neither the store nor `data` changes. */
  function SpaceUpdateAsWritten(s: Store, fk: bool, space: Space.SpaceData, patch: SpacePatch): (r: Step<Space.SpaceData>)
    ensures patch.name.Some? && patch.name.value != "name" ==> r == Step(s, space)
    ensures patch.name == Some("name") ==> r == Space.Update(s, fk, space, patch)
  {
    if patch.name == Some("name") then Space.Update(s, fk, space, patch) else Step(s, space)
  }

  /** Renaming a stored space to a fresh name: the corrected update renames
      it, the update as written does nothing. */
  lemma SpaceRenameIgnored()
    ensures var s := Empty.(spaces := [SpaceRow("prod")]);
      var sp := Space.SpaceData("prod", [], []);
      && SpaceUpdateAsWritten(s, true, sp, SpacePatch(Some("live"))).store == s
      && Space.Update(s, true, sp, SpacePatch(Some("live"))).store.spaces == [SpaceRow("live")]
  {
    var s := Empty.(spaces := [SpaceRow("prod")]);
    assert HasSpace(s, "prod") by { assert SpaceRow("prod") in s.spaces; }
    assert !HasSpace(s, "live");
    var r := Space.Update(s, true, Space.SpaceData("prod", [], []), SpacePatch(Some("live")));
    assert r.store.spaces[0] == SpaceRow("live");
  }

  // ------------------------------------------------------ start-up

  /** The schema script as written stops at the Users statement, so Users
      and UserRoles never exist. `db.exec` is given no callback, so
      node-sqlite3 reports the error as an 'error' event on the database
      object; the module registers no listener for it, which in Node.js
      most likely ends the process at start-up. */
  lemma SchemaAsWrittenLacksUsers(d: Bootstrap.Database)
    ensures var r := Bootstrap.Exec(d, Bootstrap.ScriptAsWritten);
      && r.error == Some(SyntaxError)
      && r.db.tables == d.tables + {Bootstrap.Spaces, Bootstrap.EnvVars, Bootstrap.Roles, Bootstrap.SpaceAccess}
      && r.db.rows == d.rows
    ensures Bootstrap.Users !in d.tables ==> Bootstrap.Users !in Bootstrap.Exec(d, Bootstrap.ScriptAsWritten).db.tables
  {
    var sc := Bootstrap.ScriptAsWritten;
    Bootstrap.ExecStopsAt(d, sc, 4);
    var named := set i | 0 <= i < 4 :: sc[i].table;
    assert sc[0].table == Bootstrap.Spaces && sc[1].table == Bootstrap.EnvVars;
    assert sc[2].table == Bootstrap.Roles && sc[3].table == Bootstrap.SpaceAccess;
    assert named == {Bootstrap.Spaces, Bootstrap.EnvVars, Bootstrap.Roles, Bootstrap.SpaceAccess};
  }

  /** `initSuper` as written (index.js:3,48-52): the module imports
      `createUser` and `getUserByEmail` from user.js, which exports only the
      class `User`, so the seeding code never reaches the database. */
  function InitSuperAsWritten(s: Store, email: string, password: string): (r: Store)
    ensures r == s
  {
    s
  }

  lemma InitSuperAsWrittenSeedsNothing(email: string, password: string)
    ensures !HasUser(InitSuperAsWritten(Empty, email, password), email)
    ensures HasUser(Bootstrap.InitSuper(Empty, email, password), email)
  {
  }

  /** With the imports pointed at `User.findByEmail` and `User.create`, the
      lookup as written still always settles its promise with null, so
      seeding always tries the insert (the callback's later read of the
      undeclared `row` at user.js:63 throws outside the promise and is not
      modelled); the key constraint turns a second insert into a no-op, so
      the effect is that of the corrected seeding. */
  lemma SeedingWithBrokenLookup(s: Store, email: string, password: string)
    ensures UserFindByEmailAsWritten(s, email).None?
    ensures User.Create(s, email, password).store == Bootstrap.InitSuper(s, email, password)
  {
  }
}

=== FILE: role.dfy ===
/** The Role repository of apps/server/db/role.js.

    `addUser` and `removeUser` change one UserRoles row and, on success,
    patch both the role's `users` mirror and the user's `roles` mirror. */
module Role {
  import opened Wrappers
  import opened Seqs
  import opened Aggregate
  import opened Store
  import User

  /** `IRoleRl`: a role with the `{ email, password }` objects of its
      members. */
  datatype RoleData = RoleData(name: string, users: seq<UserObj>)

  /** The `{ email, password }` object of one membership row: null fields
      when the LEFT JOIN finds no Users row for the membership's email. */
  function UserObjFor(users: seq<UserRow>, email: string): (o: UserObj)
    ensures o.email.Some? <==> HasKey(users, UserKey, email)
    ensures o.email.Some? ==> o.email.value == email && o.password.Some? && UserRow(email, o.password.value) in users
    ensures o.email.None? ==> o == UserPlaceholder
  {
    match FindBy(users, UserKey, email)
    case Some(u) => UserObj(Some(u.email), Some(u.password))
    case None => UserPlaceholder
  }

  /** The objects `json_group_array` collects for role `name`
      (role.js:35-47): one per UserRoles row naming it, in insertion order
      (see `Store`). */
  function JoinedMembers(users: seq<UserRow>, links: seq<UserRoleRow>, name: string): (objs: seq<UserObj>)
    ensures |objs| == 0 <==> forall l :: l in links ==> l.roleName != name
    ensures forall o :: o in objs && o.email.Some? ==>
      o.password.Some? && UserRoleRow(o.email.value, name) in links && UserRow(o.email.value, o.password.value) in users
    ensures forall l :: l in links && l.roleName == name && HasKey(users, UserKey, l.email) ==>
      UserObjFor(users, l.email) in objs
    decreases |links|
  {
    if |links| == 0 then []
    else
      assert forall l :: l in links <==> l == links[0] || l in links[1..];
      (if links[0].roleName == name then [UserObjFor(users, links[0].email)] else [])
        + JoinedMembers(users, links[1..], name)
  }

  /** One step of `JoinedMembers`: the first membership row, then the rest. */
  lemma JoinedMembersCons(users: seq<UserRow>, l: UserRoleRow, rest: seq<UserRoleRow>, name: string)
    ensures JoinedMembers(users, [l] + rest, name)
         == (if l.roleName == name then [UserObjFor(users, l.email)] else []) + JoinedMembers(users, rest, name)
  {
    assert ([l] + rest)[0] == l && ([l] + rest)[1..] == rest;
  }

  lemma {:induction false} JoinedMembersConcat(users: seq<UserRow>, a: seq<UserRoleRow>, b: seq<UserRoleRow>, name: string)
    ensures JoinedMembers(users, a + b, name) == JoinedMembers(users, a, name) + JoinedMembers(users, b, name)
    decreases |a|
  {
    if |a| == 0 {
      assert a + b == b;
    } else {
      var rest := a[1..];
      assert a == [a[0]] + rest && a + b == [a[0]] + (rest + b);
      JoinedMembersCons(users, a[0], rest, name);
      JoinedMembersCons(users, a[0], rest + b, name);
      JoinedMembersConcat(users, rest, b, name);
      ConcatRegroup(if a[0].roleName == name then [UserObjFor(users, a[0].email)] else [],
        JoinedMembers(users, rest, name), JoinedMembers(users, b, name));
    }
  }

  /** The decoded member list of role `name`: placeholder and dangling rows
      removed. */
  function MembersOf(s: Store, name: string): (us: seq<UserObj>)
    ensures us == Relational(JoinedMembers(s.users, s.userRoles, name), UserEmail)
  {
    RelationalDropsPlaceholder(JoinedMembers(s.users, s.userRoles, name), UserPlaceholder, UserEmail);
    Relational(Aggregated(JoinedMembers(s.users, s.userRoles, name), UserPlaceholder), UserEmail)
  }

  /** `Role.findByName` (role.js:32-58). Two lines differ from what runs:
      the query's `json_object` call ends in a trailing comma (role.js:40), a
      syntax error, and line 53 stores the filtered list under `roles`
      instead of `users`. The model is the query without the comma and the
      list stored as `users` (see `Findings.RoleFindByNameAsWritten`). When
      no row comes back the promise resolves to null; the callback then goes
      on to dereference the missing row, an exception outside the promise
      that the model leaves out. */
  function FindByName(s: Store, name: string): (r: Option<RoleData>)
    ensures r.None? <==> !HasRole(s, name)
    ensures r.Some? ==> r.value.name == name
    ensures r.Some? ==> forall u :: u in r.value.users ==>
      && u.email.Some? && u.password.Some?
      && UserRoleRow(u.email.value, name) in s.userRoles
      && UserRow(u.email.value, u.password.value) in s.users
    ensures r.Some? ==> forall l :: l in s.userRoles && l.roleName == name && HasUser(s, l.email) ==>
      exists u :: u in r.value.users && u.email == Some(l.email)
    ensures r.Some? && (forall l :: l in s.userRoles ==> l.roleName != name) ==> r.value.users == []
  {
    if !HasRole(s, name) then None
    else
      var us := MembersOf(s, name);
      assert forall l :: l in s.userRoles && l.roleName == name && HasUser(s, l.email) ==>
        UserObjFor(s.users, l.email) in us;
      assert (forall l :: l in s.userRoles ==> l.roleName != name) ==> us == [] by {
        if forall l :: l in s.userRoles ==> l.roleName != name {
          assert JoinedMembers(s.users, s.userRoles, name) == [];
        }
      }
      Some(RoleData(name, us))
  }

  /** `Role.create` (role.js:69-77): one INSERT. On an error the first
      `resolve(null)` wins, so a duplicate name yields null. */
  function Create(s: Store, name: string): (r: Step<Option<RoleData>>)
    ensures r.out.None? <==> HasRole(s, name)
    ensures r.out.None? ==> r.store == s
    ensures r.out.Some? ==> r.out.value == RoleData(name, [])
    ensures r.out.Some? ==> r.store == s.(roles := s.roles + [RoleRow(name)])
    ensures Valid(s) ==> Valid(r.store)
    ensures Referential(s) ==> Referential(r.store)
  {
    match InsertRole(s, name)
    case Err(_) => Step(s, None)
    case Ok(s') => Step(s', Some(RoleData(name, [])))
  }

  /** A created role loads back as created, when no membership row names it
      already (which referential integrity guarantees). */
  lemma CreateThenFind(s: Store, name: string)
    requires Referential(s)
    requires Create(s, name).out.Some?
    ensures FindByName(Create(s, name).store, name) == Create(s, name).out
  {
    var s' := Create(s, name).store;
    assert !HasRole(s, name);
    assert forall l :: l in s'.userRoles ==> l.roleName != name by {
      forall l | l in s'.userRoles ensures l.roleName != name {
        assert l in s.userRoles && HasRole(s, l.roleName);
      }
    }
    assert HasRole(s', name) by {
      assert RoleRow(name) in s'.roles;
    }
  }

  /** `role.update(data)` (role.js:86-99): with no fields the UPDATE does not
      parse and nothing changes; on success exactly the given fields are
      copied into the mirror. */
  function Update(s: Store, fk: bool, role: RoleData, patch: RolePatch): (r: Step<RoleData>)
    ensures patch == RolePatch(None) ==> r == Step(s, role)
    ensures r.store == s.(roles := r.store.roles)
    ensures r.out.users == role.users
    ensures
      var applied := patch.name.Some? &&
        (var n := patch.name.value;
         !HasRole(s, role.name) || n == role.name || (!HasRole(s, n) && !(fk && RoleReferenced(s, role.name))));
      && (applied ==> r.out.name == patch.name.value)
      && (!applied ==> r == Step(s, role))
      && (applied ==> forall x :: x in r.store.roles <==>
            (x in s.roles && x.name != role.name) || (HasRole(s, role.name) && x == RoleRow(r.out.name)))
    ensures Valid(s) && HasRole(s, role.name) && r.out != role ==> HasRole(r.store, r.out.name)
    ensures r.out.name != role.name ==> !HasRole(r.store, role.name)
    ensures Valid(s) ==> Valid(r.store)
    ensures fk && Valid(s) && Referential(s) ==> Referential(r.store)
  {
    match UpdateRoles(s, fk, role.name, patch)
    case Err(_) => Step(s, role)
    case Ok(s') => Step(s', role.(name := patch.name.value))
  }

  /** A loaded role that is renamed under the pragma still matches the store:
      a rename succeeds only for a role without members, and the new name
      had none either. */
  lemma UpdateThenFind(s: Store, role: RoleData, patch: RolePatch)
    requires Valid(s) && Referential(s) && FindByName(s, role.name) == Some(role)
    requires Update(s, true, role, patch).out != role
    ensures FindByName(Update(s, true, role, patch).store, Update(s, true, role, patch).out.name)
         == Some(Update(s, true, role, patch).out)
  {
    var n := patch.name.value;
    var s' := Update(s, true, role, patch).store;
    assert !RoleReferenced(s, role.name);
    assert forall l :: l in s.userRoles ==> l.roleName != role.name;
    assert role.users == [];
    assert forall l :: l in s'.userRoles ==> l.roleName != n;
  }

  /** `role.delete()` (role.js:106-110): resolves with the callback's error,
      null on success. Neither UserRoles nor SpaceAccess is touched. */
  function Delete(s: Store, fk: bool, role: RoleData): (r: Step<Option<SqlError>>)
    ensures r.out.Some? <==> fk && HasRole(s, role.name) && RoleReferenced(s, role.name)
    ensures r.out.Some? ==> r.store == s
    ensures r.out.None? ==> !HasRole(r.store, role.name) && FindByName(r.store, role.name).None?
    ensures r.out.None? ==> forall x :: x in r.store.roles <==> x in s.roles && x.name != role.name
    ensures r.store == s.(roles := r.store.roles)
    ensures Valid(s) ==> Valid(r.store)
    ensures fk && Referential(s) ==> Referential(r.store)
  {
    match DeleteRole(s, fk, role.name)
    case Err(e) => Step(s, Some(e))
    case Ok(s') => Step(s', None)
  }

  /** `role.addUser(user)` (role.js:118-128): one INSERT into UserRoles and,
      on success, both mirrors grow: the role's by the user's columns, the
      user's by the role's name. */
  function AddUser(s: Store, fk: bool, role: RoleData, user: User.UserData): (r: Step<(RoleData, User.UserData)>)
    ensures
      var link := UserRoleRow(user.email, role.name);
      var ok := link !in s.userRoles && (!fk || (HasUser(s, user.email) && HasRole(s, role.name)));
      && (ok ==> r.store == s.(userRoles := s.userRoles + [link]))
      && (ok ==> r.out.0 == role.(users := role.users + [UserObj(Some(user.email), Some(user.password))]))
      && (ok ==> r.out.1 == user.(roles := user.roles + [RoleObj(Some(role.name))]))
      && (!ok ==> r == Step(s, (role, user)))
    ensures Valid(s) ==> Valid(r.store)
    ensures fk && Referential(s) ==> Referential(r.store)
  {
    match InsertUserRole(s, fk, UserRoleRow(user.email, role.name))
    case Err(_) => Step(s, (role, user))
    case Ok(s') =>
      Step(s', (role.(users := role.users + [UserObj(Some(user.email), Some(user.password))]),
                user.(roles := user.roles + [RoleObj(Some(role.name))])))
  }

  /** The user's side of `role.addUser(user)` is `user.addRole(role.name)`:
      the same statement and the same patch of the user's mirror. */
  lemma AddUserIsAddRole(s: Store, fk: bool, role: RoleData, user: User.UserData)
    ensures AddUser(s, fk, role, user).store == User.AddRole(s, fk, user, role.name).store
    ensures AddUser(s, fk, role, user).out.1 == User.AddRole(s, fk, user, role.name).out
  {
  }

  /** Two mirrors of one role that agree up to the order of the member
      list, which the aggregate query leaves to SQLite. */
  predicate SameUpToOrder(a: RoleData, b: RoleData) {
    a.name == b.name && multiset(a.users) == multiset(b.users)
  }

  /** After a successful `addUser` of a loaded user to a loaded role, both
      mirrors hold what a fresh load returns, up to the order of the lists. */
  lemma AddUserThenFind(s: Store, fk: bool, role: RoleData, user: User.UserData)
    requires Valid(s)
    requires FindByName(s, role.name) == Some(role)
    requires User.FindByEmail(s, user.email) == Some(user)
    requires AddUser(s, fk, role, user).store != s
    ensures var found := FindByName(AddUser(s, fk, role, user).store, role.name);
      found.Some? && SameUpToOrder(found.value, AddUser(s, fk, role, user).out.0)
    ensures var found := User.FindByEmail(AddUser(s, fk, role, user).store, user.email);
      found.Some? && User.SameUpToOrder(found.value, AddUser(s, fk, role, user).out.1)
  {
    var link := UserRoleRow(user.email, role.name);
    var o := UserObj(Some(user.email), Some(user.password));
    FindByUnique(s.users, UserKey, UserRow(user.email, user.password));
    assert UserObjFor(s.users, user.email) == o;
    JoinedMembersConcat(s.users, s.userRoles, [link], role.name);
    assert JoinedMembers(s.users, [link], role.name) == [o];
    RelationalConcat(JoinedMembers(s.users, s.userRoles, role.name), [o], UserEmail);
    RelationalSingleton(o, UserEmail);
    assert FindByName(AddUser(s, fk, role, user).store, role.name) == Some(AddUser(s, fk, role, user).out.0);
    AddUserIsAddRole(s, fk, role, user);
    User.AddRoleThenFind(s, fk, user, role.name);
  }

  /** The member list without the entries of `email`, as `role.removeUser`
      filters it (role.js:140). */
  function DropUser(users: seq<UserObj>, email: string): (r: seq<UserObj>)
    ensures forall u :: u in r <==> u in users && u.email != Some(email)
    ensures forall u :: multiset(r)[u] == if u.email != Some(email) then multiset(users)[u] else 0
    ensures SubseqOf(r, users)
  {
    FilterIsSubseq(users, (u: UserObj) => u.email != Some(email));
    assert forall u :: multiset(Filter(users, (x: UserObj) => x.email != Some(email)))[u]
                       == if u.email != Some(email) then multiset(users)[u] else 0 by {
      forall u ensures multiset(Filter(users, (x: UserObj) => x.email != Some(email)))[u]
                       == if u.email != Some(email) then multiset(users)[u] else 0 {
        FilterMultiplicity(users, (x: UserObj) => x.email != Some(email), u);
      }
    }
    Filter(users, (u: UserObj) => u.email != Some(email))
  }

  lemma DropUserConcat(a: seq<UserObj>, b: seq<UserObj>, email: string)
    ensures DropUser(a + b, email) == DropUser(a, email) + DropUser(b, email)
  {
    FilterConcat(a, b, (u: UserObj) => u.email != Some(email));
  }

  /** `role.removeUser(user)` (role.js:136-146): one DELETE from UserRoles,
      which cannot fail, then both mirrors drop the other side. */
  function RemoveUser(s: Store, role: RoleData, user: User.UserData): (r: Step<(RoleData, User.UserData)>)
    ensures UserRoleRow(user.email, role.name) !in r.store.userRoles
    ensures forall l :: l in r.store.userRoles <==> l in s.userRoles && l != UserRoleRow(user.email, role.name)
    ensures r.store == s.(userRoles := r.store.userRoles)
    ensures r.out.0.name == role.name
    ensures forall u :: u in r.out.0.users <==> u in role.users && u.email != Some(user.email)
    ensures forall u :: multiset(r.out.0.users)[u] == if u.email != Some(user.email) then multiset(role.users)[u] else 0
    ensures SubseqOf(r.out.0.users, role.users)
    ensures r.out.1.email == user.email && r.out.1.password == user.password
    ensures forall o :: o in r.out.1.roles <==> o in user.roles && o.name != Some(role.name)
    ensures forall o :: multiset(r.out.1.roles)[o] == if o.name != Some(role.name) then multiset(user.roles)[o] else 0
    ensures SubseqOf(r.out.1.roles, user.roles)
    ensures Valid(s) ==> Valid(r.store)
    ensures Referential(s) ==> Referential(r.store)
  {
    Step(DeleteUserRole(s, user.email, role.name),
         (role.(users := DropUser(role.users, user.email)),
          user.(roles := User.DropRole(user.roles, role.name))))
  }

  /** Deleting the membership `(email, name)` removes from the decoded
      member list of `name` exactly the entries of `email`. */
  lemma {:induction false} JoinedMembersWithoutLink(users: seq<UserRow>, links: seq<UserRoleRow>, email: string, name: string)
    ensures Relational(JoinedMembers(users, WithoutLink(links, email, name), name), UserEmail)
         == DropUser(Relational(JoinedMembers(users, links, name), UserEmail), email)
    decreases |links|
  {
    var p := (x: UserRoleRow) => x != UserRoleRow(email, name);
    if |links| == 0 {
      assert WithoutLink(links, email, name) == [];
    } else {
      var l := links[0];
      var rest := links[1..];
      JoinedMembersWithoutLink(users, rest, email, name);
      var head := if p(l) then [l] else [];
      assert links == [l] + rest;
      assert WithoutLink(links, email, name) == head + WithoutLink(rest, email, name);
      JoinedMembersConcat(users, head, WithoutLink(rest, email, name), name);
      JoinedMembersConcat(users, [l], rest, name);
      var oh := JoinedMembers(users, [l], name);
      var rh := JoinedMembers(users, rest, name);
      RelationalConcat(oh, rh, UserEmail);
      DropUserConcat(Relational(oh, UserEmail), Relational(rh, UserEmail), email);
      RelationalConcat(JoinedMembers(users, head, name), JoinedMembers(users, WithoutLink(rest, email, name), name), UserEmail);
      if l.roleName == name {
        var o := UserObjFor(users, l.email);
        assert oh == [o];
        RelationalSingleton(o, UserEmail);
        if l.email == email {
          assert JoinedMembers(users, head, name) == [];
          FilterSingleton(o, (u: UserObj) => u.email != Some(email));
        } else {
          assert head == [l];
          FilterSingleton(o, (u: UserObj) => u.email != Some(email));
        }
      } else {
        assert oh == [];
        assert JoinedMembers(users, head, name) == [];
      }
    }
  }

  /** After `removeUser`, both mirrors equal what a fresh load returns. */
  lemma RemoveUserThenFind(s: Store, role: RoleData, user: User.UserData)
    requires FindByName(s, role.name) == Some(role)
    requires User.FindByEmail(s, user.email) == Some(user)
    ensures FindByName(RemoveUser(s, role, user).store, role.name) == Some(RemoveUser(s, role, user).out.0)
    ensures User.FindByEmail(RemoveUser(s, role, user).store, user.email) == Some(RemoveUser(s, role, user).out.1)
  {
    JoinedMembersWithoutLink(s.users, s.userRoles, user.email, role.name);
    User.RemoveRoleThenFind(s, user, role.name);
  }
}

=== FILE: seqs.dfy ===
/** Sequence helpers shared by the store and the repositories: filtering
    (JavaScript's `Array.prototype.filter`), keyed lookup, and the uniqueness
    that a PRIMARY KEY imposes on a table. */
module Seqs {
  import opened Wrappers

  /** The elements of `s` satisfying `p`, in their original order. */
  function Filter<T(!new)>(s: seq<T>, p: T -> bool): (r: seq<T>)
    ensures |r| <= |s|
    ensures forall x :: x in r <==> x in s && p(x)
  {
    if |s| == 0 then []
    else
      var rest := Filter(s[1..], p);
      assert forall x :: x in s <==> x == s[0] || x in s[1..];
      (if p(s[0]) then [s[0]] else []) + rest
  }

  lemma FilterSingleton<T(!new)>(x: T, p: T -> bool)
    ensures Filter([x], p) == if p(x) then [x] else []
  {
    assert [x][1..] == [];
  }

  /** `r` is obtained from `s` by deleting elements: order is kept. */
  ghost predicate SubseqOf<T>(r: seq<T>, s: seq<T>)
    decreases |s|
  {
    if |r| == 0 then true
    else if |s| == 0 then false
    else (r[0] == s[0] && SubseqOf(r[1..], s[1..])) || SubseqOf(r, s[1..])
  }

  lemma {:induction false} FilterIsSubseq<T(!new)>(s: seq<T>, p: T -> bool)
    ensures SubseqOf(Filter(s, p), s)
    decreases |s|
  {
    if |s| > 0 {
      FilterIsSubseq(s[1..], p);
      var r := Filter(s, p);
      if p(s[0]) {
        assert r[0] == s[0] && r[1..] == Filter(s[1..], p);
      } else {
        assert r == Filter(s[1..], p);
      }
    }
  }

  lemma {:induction false} FilterConcat<T(!new)>(a: seq<T>, b: seq<T>, p: T -> bool)
    ensures Filter(a + b, p) == Filter(a, p) + Filter(b, p)
    decreases |a|
  {
    if |a| == 0 {
      assert a + b == b;
    } else {
      assert (a + b)[1..] == a[1..] + b;
      FilterConcat(a[1..], b, p);
    }
  }

  /** Filtering changes nothing when every element already passes. */
  lemma {:induction false} FilterAllPass<T(!new)>(s: seq<T>, p: T -> bool)
    requires forall x :: x in s ==> p(x)
    ensures Filter(s, p) == s
    decreases |s|
  {
    if |s| > 0 {
      assert s[0] in s;
      assert forall x :: x in s[1..] ==> x in s;
      FilterAllPass(s[1..], p);
    }
  }

  /** Each element keeps its multiplicity when it passes and disappears when
      it does not. */
  lemma {:induction false} FilterMultiplicity<T(!new)>(s: seq<T>, p: T -> bool, x: T)
    ensures multiset(Filter(s, p))[x] == if p(x) then multiset(s)[x] else 0
    decreases |s|
  {
    if |s| > 0 {
      FilterMultiplicity(s[1..], p, x);
      assert s == [s[0]] + s[1..];
      assert multiset(s) == multiset([s[0]]) + multiset(s[1..]);
    }
  }

  /** Concatenation regrouped. */
  lemma ConcatRegroup<T>(x: seq<T>, y: seq<T>, z: seq<T>)
    ensures x + (y + z) == (x + y) + z
  {
  }

  /** True when some row of `rows` has key `k`. */
  predicate HasKey<T(==,!new), K(==)>(rows: seq<T>, key: T -> K, k: K) {
    exists r :: r in rows && key(r) == k
  }

  /** No two rows share a key: what a PRIMARY KEY constraint guarantees. */
  predicate UniqueBy<T, K(==)>(rows: seq<T>, key: T -> K) {
    forall i, j :: 0 <= i < j < |rows| ==> key(rows[i]) != key(rows[j])
  }

  /** The first row with key `k`, if any. */
  function FindBy<T(!new), K(==)>(rows: seq<T>, key: T -> K, k: K): (r: Option<T>)
    ensures r.Some? ==> r.value in rows && key(r.value) == k
    ensures r.None? ==> forall x :: x in rows ==> key(x) != k
  {
    if |rows| == 0 then None
    else if key(rows[0]) == k then Some(rows[0])
    else
      assert forall x :: x in rows ==> x == rows[0] || x in rows[1..];
      FindBy(rows[1..], key, k)
  }

  /** Under unique keys, a row is determined by its key. */
  lemma KeyDeterminesRow<T, K>(rows: seq<T>, key: T -> K, a: T, b: T)
    requires UniqueBy(rows, key)
    requires a in rows && b in rows && key(a) == key(b)
    ensures a == b
  {
    var i :| 0 <= i < |rows| && rows[i] == a;
    var j :| 0 <= j < |rows| && rows[j] == b;
    assert !(i < j) && !(j < i);
  }

  /** Under unique keys, `FindBy` finds the one row holding the key. */
  lemma FindByUnique<T(!new), K>(rows: seq<T>, key: T -> K, x: T)
    requires UniqueBy(rows, key) && x in rows
    ensures FindBy(rows, key, key(x)) == Some(x)
  {
    var r := FindBy(rows, key, key(x));
    KeyDeterminesRow(rows, key, r.value, x);
  }

  lemma UniqueAppend<T(!new), K>(rows: seq<T>, key: T -> K, x: T)
    requires UniqueBy(rows, key) && !HasKey(rows, key, key(x))
    ensures UniqueBy(rows + [x], key)
  {
    var t := rows + [x];
    forall i, j | 0 <= i < j < |t|
      ensures key(t[i]) != key(t[j])
    {
      if j == |rows| {
        assert t[i] == rows[i] && rows[i] in rows;
      } else {
        assert t[i] == rows[i] && t[j] == rows[j];
      }
    }
  }

  lemma {:induction false} UniqueFilter<T(!new), K>(rows: seq<T>, key: T -> K, p: T -> bool)
    requires UniqueBy(rows, key)
    ensures UniqueBy(Filter(rows, p), key)
    decreases |rows|
  {
    if |rows| > 0 {
      var tail := rows[1..];
      assert UniqueBy(tail, key) by {
        forall i, j | 0 <= i < j < |tail| ensures key(tail[i]) != key(tail[j]) {
          assert tail[i] == rows[i + 1] && tail[j] == rows[j + 1];
        }
      }
      UniqueFilter(tail, key, p);
      var ft := Filter(tail, p);
      if p(rows[0]) {
        var t := [rows[0]] + ft;
        forall i, j | 0 <= i < j < |t| ensures key(t[i]) != key(t[j]) {
          if i == 0 {
            assert t[j] == ft[j - 1] && ft[j - 1] in ft;
            var k :| 0 <= k < |tail| && tail[k] == ft[j - 1];
            assert rows[k + 1] == tail[k];
          } else {
            assert t[i] == ft[i - 1] && t[j] == ft[j - 1];
          }
        }
      }
    }
  }

  /** How many rows carry key `k`. */
  function KeyCount<T, K(==)>(rows: seq<T>, key: T -> K, k: K): (n: nat)
    ensures n <= |rows|
    decreases |rows|
  {
    if |rows| == 0 then 0
    else (if key(rows[0]) == k then 1 else 0) + KeyCount(rows[1..], key, k)
  }

  lemma {:induction false} KeyCountZero<T(!new), K>(rows: seq<T>, key: T -> K, k: K)
    ensures KeyCount(rows, key, k) == 0 <==> !HasKey(rows, key, k)
    decreases |rows|
  {
    if |rows| > 0 {
      KeyCountZero(rows[1..], key, k);
      assert forall x :: x in rows <==> x == rows[0] || x in rows[1..];
    }
  }

  /** Under a key constraint a key occurs at most once: exactly once when
      present. */
  lemma {:induction false} UniqueKeyCount<T(!new), K>(rows: seq<T>, key: T -> K, k: K)
    requires UniqueBy(rows, key)
    ensures KeyCount(rows, key, k) == if HasKey(rows, key, k) then 1 else 0
    decreases |rows|
  {
    KeyCountZero(rows, key, k);
    if |rows| > 0 {
      var tail := rows[1..];
      assert UniqueBy(tail, key) by {
        forall i, j | 0 <= i < j < |tail| ensures key(tail[i]) != key(tail[j]) {
          assert tail[i] == rows[i + 1] && tail[j] == rows[j + 1];
        }
      }
      UniqueKeyCount(tail, key, k);
      if key(rows[0]) == k {
        assert !HasKey(tail, key, k) by {
          forall x | x in tail ensures key(x) != k {
            var j :| 0 <= j < |tail| && tail[j] == x;
            assert rows[j + 1] == x;
          }
        }
      }
    }
  }

  /** Two rows sharing a key make that key count at least twice. */
  lemma {:induction false} KeyCountShared<T(!new), K>(rows: seq<T>, key: T -> K, i: int, j: int)
    requires 0 <= i < j < |rows| && key(rows[i]) == key(rows[j])
    ensures KeyCount(rows, key, key(rows[i])) >= 2
    decreases |rows|
  {
    var tail := rows[1..];
    assert tail[j - 1] == rows[j];
    if i == 0 {
      assert tail[j - 1] in tail;
      KeyCountZero(tail, key, key(rows[0]));
    } else {
      assert tail[i - 1] == rows[i];
      KeyCountShared(tail, key, i - 1, j - 1);
    }
  }

  /** No key value is counted more than once. */
  ghost predicate AtMostOncePerKey<T, K(!new)>(rows: seq<T>, key: T -> K) {
    forall k :: KeyCount(rows, key, k) <= 1
  }

  /** A key constraint holds exactly when no key occurs more than once. */
  lemma UniqueByIffKeyCount<T(!new), K(!new)>(rows: seq<T>, key: T -> K)
    ensures UniqueBy(rows, key) <==> AtMostOncePerKey(rows, key)
  {
    if UniqueBy(rows, key) {
      forall k ensures KeyCount(rows, key, k) <= 1 {
        UniqueKeyCount(rows, key, k);
      }
    } else {
      var i, j :| 0 <= i < j < |rows| && key(rows[i]) == key(rows[j]);
      KeyCountShared(rows, key, i, j);
      assert KeyCount(rows, key, key(rows[i])) > 1;
    }
  }

  /** `rows` with every row satisfying `hit` replaced by `f` of it; the
      effect of an UPDATE statement's SET list on its WHERE-matched rows. */
  function MapWhere<T>(rows: seq<T>, hit: T -> bool, f: T -> T): (r: seq<T>)
    ensures |r| == |rows|
    ensures forall i :: 0 <= i < |rows| ==> r[i] == if hit(rows[i]) then f(rows[i]) else rows[i]
  {
    seq(|rows|, i requires 0 <= i < |rows| => if hit(rows[i]) then f(rows[i]) else rows[i])
  }

  /** The rows after rewriting: the rows not hit, and the rewrites of the
      rows hit. */
  lemma MapWhereMembers<T>(rows: seq<T>, hit: T -> bool, f: T -> T)
    ensures forall x :: x in MapWhere(rows, hit, f) <==>
      (x in rows && !hit(x)) || exists y :: y in rows && hit(y) && x == f(y)
  {
    var t := MapWhere(rows, hit, f);
    forall x ensures x in t <==> (x in rows && !hit(x)) || exists y :: y in rows && hit(y) && x == f(y) {
      if x in t {
        var i :| 0 <= i < |t| && t[i] == x;
        assert rows[i] in rows;
      }
      if x in rows && !hit(x) {
        var i :| 0 <= i < |rows| && rows[i] == x;
        assert t[i] == x;
      }
      if exists y :: y in rows && hit(y) && x == f(y) {
        var y :| y in rows && hit(y) && x == f(y);
        var i :| 0 <= i < |rows| && rows[i] == y;
        assert t[i] == x;
      }
    }
  }

  /** Renaming the row keyed `q` to key `n` keeps keys unique when `n` is new
      (or equal to `q`); every other key is kept, and `q` is replaced by `n`. */
  lemma MapWhereRekey<T(!new), K>(rows: seq<T>, key: T -> K, hit: T -> bool, f: T -> T, q: K, n: K)
    requires UniqueBy(rows, key)
    requires forall x :: hit(x) <==> key(x) == q
    requires forall x :: hit(x) ==> key(f(x)) == n
    requires n == q || !HasKey(rows, key, n)
    ensures UniqueBy(MapWhere(rows, hit, f), key)
    ensures forall k :: k != q && k != n ==> (HasKey(MapWhere(rows, hit, f), key, k) <==> HasKey(rows, key, k))
    ensures HasKey(rows, key, q) ==> HasKey(MapWhere(rows, hit, f), key, n)
    ensures n != q ==> !HasKey(MapWhere(rows, hit, f), key, q)
  {
    var t := MapWhere(rows, hit, f);
    forall i, j | 0 <= i < j < |t| ensures key(t[i]) != key(t[j]) {
      if hit(rows[i]) && !hit(rows[j]) {
        assert rows[j] in rows;
      } else if !hit(rows[i]) && hit(rows[j]) {
        assert rows[i] in rows;
      }
    }
    forall k | k != q && k != n
      ensures HasKey(t, key, k) <==> HasKey(rows, key, k)
    {
      if HasKey(t, key, k) {
        var x :| x in t && key(x) == k;
        var i :| 0 <= i < |t| && t[i] == x;
        assert rows[i] in rows;
      }
      if HasKey(rows, key, k) {
        var x :| x in rows && key(x) == k;
        var i :| 0 <= i < |rows| && rows[i] == x;
        assert t[i] in t;
      }
    }
    if HasKey(rows, key, q) {
      var x :| x in rows && key(x) == q;
      var i :| 0 <= i < |rows| && rows[i] == x;
      assert t[i] in t;
    }
  }
}

=== FILE: space.dfy ===
/** The Space repository of apps/server/db/space.js. A space is loaded with
    its environment variables and its access grants; the repository has no
    methods that add or remove either. */
module Space {
  import opened Wrappers
  import opened Seqs
  import opened Aggregate
  import opened Store

  /** `ISpaceRl`: a space with its env-var and grant objects. */
  datatype SpaceData = SpaceData(name: string, envs: seq<EnvObj>, access: seq<AccessObj>)

  function EnvObjOf(e: EnvVarRow): EnvObj {
    EnvObj(Some(e.envKey), Some(e.envValue), Some(e.spaceName))
  }

  function AccessObjOf(a: AccessRow): AccessObj {
    AccessObj(Some(a.spaceName), Some(a.roleName), Some(a.write))
  }

  /** The env-var objects a LEFT JOIN of EnvVars on `spaceName` yields for
      space `name`, in insertion order (see `Store`). */
  function JoinedEnvs(envVars: seq<EnvVarRow>, name: string): (objs: seq<EnvObj>)
    ensures |objs| == 0 <==> forall e :: e in envVars ==> e.spaceName != name
    ensures forall o :: o in objs <==> exists e :: e in envVars && e.spaceName == name && o == EnvObjOf(e)
    decreases |envVars|
  {
    if |envVars| == 0 then []
    else
      assert forall e :: e in envVars <==> e == envVars[0] || e in envVars[1..];
      (if envVars[0].spaceName == name then [EnvObjOf(envVars[0])] else []) + JoinedEnvs(envVars[1..], name)
  }

  /** The grant objects a LEFT JOIN of SpaceAccess on `spaceName` yields for
      space `name`, in insertion order (see `Store`). */
  function JoinedAccess(grants: seq<AccessRow>, name: string): (objs: seq<AccessObj>)
    ensures |objs| == 0 <==> forall a :: a in grants ==> a.spaceName != name
    ensures forall o :: o in objs <==> exists a :: a in grants && a.spaceName == name && o == AccessObjOf(a)
    decreases |grants|
  {
    if |grants| == 0 then []
    else
      assert forall a :: a in grants <==> a == grants[0] || a in grants[1..];
      (if grants[0].spaceName == name then [AccessObjOf(grants[0])] else []) + JoinedAccess(grants[1..], name)
  }

  /** `Space.findSpaceByName` (space.js:34-72), each related list aggregated
      on its own. As written, the `json_object` call for grants ends in a
      trailing comma (space.js:50), the two LEFT JOINs multiply each other's
      rows (space.js:54-55; see `Findings.SpaceCrossJoinFetch`), and line 65
      reads `row.envs` although the column is aliased `vars` (space.js:45)
      and stores the Promise `relational` returns. The model decodes `vars`
      and `access`, each from its own join, synchronously. When no row comes
      back the promise resolves to null; the callback then goes on to
      dereference the missing row, an exception outside the promise that the
      model leaves out. */
  function FindByName(s: Store, name: string): (r: Option<SpaceData>)
    ensures r.None? <==> !HasSpace(s, name)
    ensures r.Some? ==> r.value.name == name
    ensures r.Some? ==> forall o :: o in r.value.envs <==>
      exists e :: e in s.envVars && e.spaceName == name && o == EnvObjOf(e)
    ensures r.Some? ==> forall o :: o in r.value.access <==>
      exists a :: a in s.spaceAccess && a.spaceName == name && o == AccessObjOf(a)
    ensures r.Some? ==> forall o :: o in r.value.envs ==> o.envKey.Some? && o.spaceName == Some(name)
    ensures r.Some? ==> forall o :: o in r.value.access ==> o.spaceName == Some(name)
    ensures r.Some? && (forall e :: e in s.envVars ==> e.spaceName != name) ==> r.value.envs == []
    ensures r.Some? && (forall a :: a in s.spaceAccess ==> a.spaceName != name) ==> r.value.access == []
  {
    if !HasSpace(s, name) then None
    else
      var ev := JoinedEnvs(s.envVars, name);
      var ac := JoinedAccess(s.spaceAccess, name);
      RelationalDropsPlaceholder(ev, EnvPlaceholder, EnvKeyOf);
      RelationalDropsPlaceholder(ac, AccessPlaceholder, AccessSpace);
      RelationalAllPresent(ev, EnvKeyOf);
      RelationalAllPresent(ac, AccessSpace);
      Some(SpaceData(name,
                     Relational(Aggregated(ev, EnvPlaceholder), EnvKeyOf),
                     Relational(Aggregated(ac, AccessPlaceholder), AccessSpace)))
  }

  /** No two elements of `xs` are equal. */
  predicate Distinct<T(==)>(xs: seq<T>) {
    forall i, j :: 0 <= i < j < |xs| ==> xs[i] != xs[j]
  }

  lemma {:induction false} JoinedEnvsDistinct(envVars: seq<EnvVarRow>, name: string)
    requires UniqueBy(envVars, EnvKey)
    ensures Distinct(JoinedEnvs(envVars, name))
    decreases |envVars|
  {
    if |envVars| > 0 {
      var tail := envVars[1..];
      assert UniqueBy(tail, EnvKey) by {
        forall i, j | 0 <= i < j < |tail| ensures EnvKey(tail[i]) != EnvKey(tail[j]) {
          assert tail[i] == envVars[i + 1] && tail[j] == envVars[j + 1];
        }
      }
      JoinedEnvsDistinct(tail, name);
      var rest := JoinedEnvs(tail, name);
      if envVars[0].spaceName == name {
        var t := [EnvObjOf(envVars[0])] + rest;
        forall i, j | 0 <= i < j < |t| ensures t[i] != t[j] {
          if i == 0 {
            assert t[j] == rest[j - 1] && rest[j - 1] in rest;
            var e :| e in tail && e.spaceName == name && rest[j - 1] == EnvObjOf(e);
            var k :| 0 <= k < |tail| && tail[k] == e;
            assert envVars[k + 1] == e;
          } else {
            assert t[i] == rest[i - 1] && t[j] == rest[j - 1];
          }
        }
      }
    }
  }

  lemma {:induction false} JoinedAccessDistinct(grants: seq<AccessRow>, name: string)
    requires UniqueBy(grants, AccessKey)
    ensures Distinct(JoinedAccess(grants, name))
    decreases |grants|
  {
    if |grants| > 0 {
      var tail := grants[1..];
      assert UniqueBy(tail, AccessKey) by {
        forall i, j | 0 <= i < j < |tail| ensures AccessKey(tail[i]) != AccessKey(tail[j]) {
          assert tail[i] == grants[i + 1] && tail[j] == grants[j + 1];
        }
      }
      JoinedAccessDistinct(tail, name);
      var rest := JoinedAccess(tail, name);
      if grants[0].spaceName == name {
        var t := [AccessObjOf(grants[0])] + rest;
        forall i, j | 0 <= i < j < |t| ensures t[i] != t[j] {
          if i == 0 {
            assert t[j] == rest[j - 1] && rest[j - 1] in rest;
            var a :| a in tail && a.spaceName == name && rest[j - 1] == AccessObjOf(a);
            var k :| 0 <= k < |tail| && tail[k] == a;
            assert grants[k + 1] == a;
          } else {
            assert t[i] == rest[i - 1] && t[j] == rest[j - 1];
          }
        }
      }
    }
  }

  /** With separate aggregation each variable and each grant of the space is
      listed exactly once, however many of the other kind there are. */
  lemma FindByNameListsEachOnce(s: Store, name: string)
    requires Valid(s) && HasSpace(s, name)
    ensures Distinct(FindByName(s, name).value.envs)
    ensures Distinct(FindByName(s, name).value.access)
    ensures |FindByName(s, name).value.envs| == |JoinedEnvs(s.envVars, name)|
  {
    var ev := JoinedEnvs(s.envVars, name);
    var ac := JoinedAccess(s.spaceAccess, name);
    RelationalDropsPlaceholder(ev, EnvPlaceholder, EnvKeyOf);
    RelationalDropsPlaceholder(ac, AccessPlaceholder, AccessSpace);
    RelationalAllPresent(ev, EnvKeyOf);
    RelationalAllPresent(ac, AccessSpace);
    assert FindByName(s, name).value.envs == ev;
    assert FindByName(s, name).value.access == ac;
    JoinedEnvsDistinct(s.envVars, name);
    JoinedAccessDistinct(s.spaceAccess, name);
  }

  /** `Space.create` (space.js:81-88): one INSERT; a duplicate name yields
      null because the first `resolve` wins. */
  function Create(s: Store, name: string): (r: Step<Option<SpaceData>>)
    ensures r.out.None? <==> HasSpace(s, name)
    ensures r.out.None? ==> r.store == s
    ensures r.out.Some? ==> r.out.value == SpaceData(name, [], [])
    ensures r.out.Some? ==> r.store == s.(spaces := s.spaces + [SpaceRow(name)])
    ensures Valid(s) ==> Valid(r.store)
    ensures Referential(s) ==> Referential(r.store)
  {
    match InsertSpace(s, name)
    case Err(_) => Step(s, None)
    case Ok(s') => Step(s', Some(SpaceData(name, [], [])))
  }

  /** A created space loads back with no variables and no grants, when no
      child row names it already (which referential integrity guarantees). */
  lemma CreateThenFind(s: Store, name: string)
    requires Referential(s)
    requires Create(s, name).out.Some?
    ensures FindByName(Create(s, name).store, name) == Create(s, name).out
  {
    var s' := Create(s, name).store;
    assert !HasSpace(s, name);
    assert forall e :: e in s'.envVars ==> e.spaceName != name by {
      forall e | e in s'.envVars ensures e.spaceName != name {
        assert HasSpace(s, e.spaceName);
      }
    }
    assert forall a :: a in s'.spaceAccess ==> a.spaceName != name by {
      forall a | a in s'.spaceAccess ensures a.spaceName != name {
        assert HasSpace(s, a.spaceName);
      }
    }
    assert HasSpace(s', name) by {
      assert SpaceRow(name) in s'.spaces;
    }
  }

  /** `space.update(data)` (space.js:96-114). The SET list is written with
      `'$' + v`, naming each placeholder after the new value, while the
      parameters are bound under `'$' + k` (space.js:104,108); the model is
      the statement with `$name`, as the other repositories write it. With
      no fields the UPDATE does not parse and nothing changes. */
  function Update(s: Store, fk: bool, space: SpaceData, patch: SpacePatch): (r: Step<SpaceData>)
    ensures patch == SpacePatch(None) ==> r == Step(s, space)
    ensures r.store == s.(spaces := r.store.spaces)
    ensures r.out.envs == space.envs && r.out.access == space.access
    ensures
      var applied := patch.name.Some? &&
        (var n := patch.name.value;
         !HasSpace(s, space.name) || n == space.name || (!HasSpace(s, n) && !(fk && SpaceReferenced(s, space.name))));
      && (applied ==> r.out.name == patch.name.value)
      && (!applied ==> r == Step(s, space))
      && (applied ==> forall x :: x in r.store.spaces <==>
            (x in s.spaces && x.name != space.name) || (HasSpace(s, space.name) && x == SpaceRow(r.out.name)))
    ensures Valid(s) && HasSpace(s, space.name) && r.out != space ==> HasSpace(r.store, r.out.name)
    ensures r.out.name != space.name ==> !HasSpace(r.store, space.name)
    ensures Valid(s) ==> Valid(r.store)
    ensures fk && Valid(s) && Referential(s) ==> Referential(r.store)
  {
    match UpdateSpaces(s, fk, space.name, patch)
    case Err(_) => Step(s, space)
    case Ok(s') => Step(s', space.(name := patch.name.value))
  }

  /** A loaded space that is renamed under the pragma still matches the
      store: a rename succeeds only for a space without variables or grants,
      and nothing named the new name either. */
  lemma UpdateThenFind(s: Store, space: SpaceData, patch: SpacePatch)
    requires Valid(s) && Referential(s) && FindByName(s, space.name) == Some(space)
    requires Update(s, true, space, patch).out != space
    ensures FindByName(Update(s, true, space, patch).store, Update(s, true, space, patch).out.name)
         == Some(Update(s, true, space, patch).out)
  {
    var n := patch.name.value;
    var s' := Update(s, true, space, patch).store;
    assert !SpaceReferenced(s, space.name);
    assert space.envs == [] && space.access == [];
    assert forall e :: e in s'.envVars ==> e.spaceName != n;
    assert forall a :: a in s'.spaceAccess ==> a.spaceName != n;
  }

  /** `space.delete()` (space.js:121-125): resolves with the callback's
      error, null on success. EnvVars and SpaceAccess are not touched. */
  function Delete(s: Store, fk: bool, space: SpaceData): (r: Step<Option<SqlError>>)
    ensures r.out.Some? <==> fk && HasSpace(s, space.name) && SpaceReferenced(s, space.name)
    ensures r.out.Some? ==> r.store == s
    ensures r.out.None? ==> !HasSpace(r.store, space.name) && FindByName(r.store, space.name).None?
    ensures r.out.None? ==> forall x :: x in r.store.spaces <==> x in s.spaces && x.name != space.name
    ensures r.store == s.(spaces := r.store.spaces)
    ensures Valid(s) ==> Valid(r.store)
    ensures fk && Referential(s) ==> Referential(r.store)
  {
    match DeleteSpace(s, fk, space.name)
    case Err(e) => Step(s, Some(e))
    case Ok(s') => Step(s', None)
  }
}

=== FILE: store.dfy ===
/** The relational store of apps/server/db/index.js:8-45: six tables, their
    PRIMARY KEY and FOREIGN KEY constraints, and the INSERT / UPDATE / DELETE
    statements the repositories issue.

    Each table is the sequence of its rows in insertion order. The aggregate
    fetches are modelled as listing related rows in that order too; their
    queries have no ORDER BY, so SQLite promises only which rows appear,
    not their order.
    Column values are never null: every column is NOT NULL or part of a key,
    and callers always bind strings.

    SQLite checks FOREIGN KEY clauses only while `PRAGMA foreign_keys` is on,
    and nothing in the code turns it on; the statements therefore take the
    pragma as the parameter `fk`. */
module Store {
  import opened Wrappers
  import opened Seqs

  datatype SpaceRow = SpaceRow(name: string)
  datatype EnvVarRow = EnvVarRow(envKey: string, envValue: string, spaceName: string)
  datatype RoleRow = RoleRow(name: string)
  /** `write` is an INTEGER column (0 read-only, otherwise read-write). */
  datatype AccessRow = AccessRow(spaceName: string, roleName: string, write: int)
  datatype UserRow = UserRow(email: string, password: string)
  datatype UserRoleRow = UserRoleRow(email: string, roleName: string)

  /** The declared PRIMARY KEY of each table. */
  function SpaceKey(r: SpaceRow): string { r.name }
  function EnvKey(r: EnvVarRow): string { r.envKey }
  function RoleKey(r: RoleRow): string { r.name }
  function AccessKey(r: AccessRow): (string, string) { (r.spaceName, r.roleName) }
  function UserKey(r: UserRow): string { r.email }
  function UserRoleKey(r: UserRoleRow): (string, string) { (r.email, r.roleName) }

  datatype Store = Store(
    spaces: seq<SpaceRow>,
    envVars: seq<EnvVarRow>,
    roles: seq<RoleRow>,
    spaceAccess: seq<AccessRow>,
    users: seq<UserRow>,
    userRoles: seq<UserRoleRow>)

  const Empty := Store([], [], [], [], [], [])

  /** The error a statement's callback receives. */
  datatype SqlError = UniqueViolation | ForeignKeyViolation | SyntaxError

  /** One repository call: the store after its single statement, and what
      the call resolves to or leaves in the caller's instances. */
  datatype Step<T> = Step(store: Store, out: T)

  /** PRIMARY KEY uniqueness in every table (index.js:10,14,21,28,34,41). */
  predicate Valid(s: Store) {
    && UniqueBy(s.spaces, SpaceKey)
    && UniqueBy(s.envVars, EnvKey)
    && UniqueBy(s.roles, RoleKey)
    && UniqueBy(s.spaceAccess, AccessKey)
    && UniqueBy(s.users, UserKey)
    && UniqueBy(s.userRoles, UserRoleKey)
  }

  /** `Valid` read as counts: no key value is held by two rows of its
      table. */
  lemma ValidIffOneRowPerKey(s: Store)
    ensures Valid(s) <==>
      && AtMostOncePerKey(s.spaces, SpaceKey)
      && AtMostOncePerKey(s.envVars, EnvKey)
      && AtMostOncePerKey(s.roles, RoleKey)
      && AtMostOncePerKey(s.spaceAccess, AccessKey)
      && AtMostOncePerKey(s.users, UserKey)
      && AtMostOncePerKey(s.userRoles, UserRoleKey)
  {
    UniqueByIffKeyCount(s.spaces, SpaceKey);
    UniqueByIffKeyCount(s.envVars, EnvKey);
    UniqueByIffKeyCount(s.roles, RoleKey);
    UniqueByIffKeyCount(s.spaceAccess, AccessKey);
    UniqueByIffKeyCount(s.users, UserKey);
    UniqueByIffKeyCount(s.userRoles, UserRoleKey);
  }

  predicate HasSpace(s: Store, name: string) { HasKey(s.spaces, SpaceKey, name) }
  predicate HasRole(s: Store, name: string) { HasKey(s.roles, RoleKey, name) }
  predicate HasUser(s: Store, email: string) { HasKey(s.users, UserKey, email) }

  /** Some child row points at the parent key. */
  predicate SpaceReferenced(s: Store, name: string) {
    || (exists e :: e in s.envVars && e.spaceName == name)
    || (exists a :: a in s.spaceAccess && a.spaceName == name)
  }

  predicate RoleReferenced(s: Store, name: string) {
    || (exists a :: a in s.spaceAccess && a.roleName == name)
    || (exists ur :: ur in s.userRoles && ur.roleName == name)
  }

  predicate UserReferenced(s: Store, email: string) {
    exists ur :: ur in s.userRoles && ur.email == email
  }

  /** Every FOREIGN KEY clause holds (index.js:17,29-30,42-43). */
  predicate Referential(s: Store) {
    && (forall e :: e in s.envVars ==> HasSpace(s, e.spaceName))
    && (forall a :: a in s.spaceAccess ==> HasSpace(s, a.spaceName) && HasRole(s, a.roleName))
    && (forall ur :: ur in s.userRoles ==> HasUser(s, ur.email) && HasRole(s, ur.roleName))
  }

  // ---------------------------------------------------------------- INSERT

  /** `INSERT INTO Spaces VALUES (?)` (space.js:83). */
  function InsertSpace(s: Store, name: string): (r: Result<Store, SqlError>)
    ensures r.Err? <==> HasSpace(s, name)
    ensures r.Err? ==> r.error == UniqueViolation
    ensures r.Ok? ==> r.value == s.(spaces := s.spaces + [SpaceRow(name)])
    ensures r.Ok? && Valid(s) ==> Valid(r.value)
    ensures r.Ok? && Referential(s) ==> Referential(r.value)
  {
    if HasSpace(s, name) then Err(UniqueViolation)
    else
      var s' := s.(spaces := s.spaces + [SpaceRow(name)]);
      assert Valid(s) ==> Valid(s') by {
        if Valid(s) {
          UniqueAppend(s.spaces, SpaceKey, SpaceRow(name));
        }
      }
      Ok(s')
  }

  /** `INSERT INTO Roles VALUES (?)` (role.js:71). */
  function InsertRole(s: Store, name: string): (r: Result<Store, SqlError>)
    ensures r.Err? <==> HasRole(s, name)
    ensures r.Err? ==> r.error == UniqueViolation
    ensures r.Ok? ==> r.value == s.(roles := s.roles + [RoleRow(name)])
    ensures r.Ok? && Valid(s) ==> Valid(r.value)
    ensures r.Ok? && Referential(s) ==> Referential(r.value)
  {
    if HasRole(s, name) then Err(UniqueViolation)
    else
      var s' := s.(roles := s.roles + [RoleRow(name)]);
      assert Valid(s) ==> Valid(s') by {
        if Valid(s) {
          UniqueAppend(s.roles, RoleKey, RoleRow(name));
        }
      }
      Ok(s')
  }

  /** `INSERT INTO Users (email, password) VALUES (?, ?)` (user.js:86-88):
      the password is stored exactly as bound. */
  function InsertUser(s: Store, email: string, password: string): (r: Result<Store, SqlError>)
    ensures r.Err? <==> HasUser(s, email)
    ensures r.Err? ==> r.error == UniqueViolation
    ensures r.Ok? ==> r.value == s.(users := s.users + [UserRow(email, password)])
    ensures r.Ok? && Valid(s) ==> Valid(r.value)
    ensures r.Ok? && Referential(s) ==> Referential(r.value)
  {
    if HasUser(s, email) then Err(UniqueViolation)
    else
      var s' := s.(users := s.users + [UserRow(email, password)]);
      assert Valid(s) ==> Valid(s') by {
        if Valid(s) {
          UniqueAppend(s.users, UserKey, UserRow(email, password));
        }
      }
      Ok(s')
  }

  /** An INSERT into EnvVars. No repository method issues one; the table's
      constraints still decide what the store accepts. */
  function InsertEnvVar(s: Store, fk: bool, row: EnvVarRow): (r: Result<Store, SqlError>)
    ensures HasKey(s.envVars, EnvKey, row.envKey) ==> r == Err(UniqueViolation)
    ensures fk && !HasSpace(s, row.spaceName) ==> r.Err?
    ensures r.Ok? <==> !HasKey(s.envVars, EnvKey, row.envKey) && (!fk || HasSpace(s, row.spaceName))
    ensures r.Ok? ==> r.value == s.(envVars := s.envVars + [row])
    ensures r.Ok? && Valid(s) ==> Valid(r.value)
    ensures r.Ok? && fk && Referential(s) ==> Referential(r.value)
  {
    if HasKey(s.envVars, EnvKey, row.envKey) then Err(UniqueViolation)
    else if fk && !HasSpace(s, row.spaceName) then Err(ForeignKeyViolation)
    else
      var s' := s.(envVars := s.envVars + [row]);
      assert Valid(s) ==> Valid(s') by {
        if Valid(s) {
          UniqueAppend(s.envVars, EnvKey, row);
        }
      }
      Ok(s')
  }

  /** `envKey` is the key of EnvVars on its own, not paired with the space
      (index.js:14): two spaces never hold a variable of the same key. */
  lemma EnvKeyNamesOneSpace(s: Store, a: EnvVarRow, b: EnvVarRow)
    requires Valid(s) && a in s.envVars && b in s.envVars && a.envKey == b.envKey
    ensures a.spaceName == b.spaceName && a == b
  {
    KeyDeterminesRow(s.envVars, EnvKey, a, b);
  }

  /** An INSERT into SpaceAccess; as for EnvVars, no repository issues one. */
  function InsertSpaceAccess(s: Store, fk: bool, row: AccessRow): (r: Result<Store, SqlError>)
    ensures HasKey(s.spaceAccess, AccessKey, AccessKey(row)) ==> r == Err(UniqueViolation)
    ensures fk && !(HasSpace(s, row.spaceName) && HasRole(s, row.roleName)) ==> r.Err?
    ensures r.Ok? <==>
      !HasKey(s.spaceAccess, AccessKey, AccessKey(row)) && (!fk || (HasSpace(s, row.spaceName) && HasRole(s, row.roleName)))
    ensures r.Ok? ==> r.value == s.(spaceAccess := s.spaceAccess + [row])
    ensures r.Ok? && Valid(s) ==> Valid(r.value)
    ensures r.Ok? && fk && Referential(s) ==> Referential(r.value)
  {
    if HasKey(s.spaceAccess, AccessKey, AccessKey(row)) then Err(UniqueViolation)
    else if fk && !(HasSpace(s, row.spaceName) && HasRole(s, row.roleName)) then Err(ForeignKeyViolation)
    else
      var s' := s.(spaceAccess := s.spaceAccess + [row]);
      assert Valid(s) ==> Valid(s') by {
        if Valid(s) {
          UniqueAppend(s.spaceAccess, AccessKey, row);
        }
      }
      Ok(s')
  }

  /** `INSERT INTO UserRoles VALUES (?, ?)` (role.js:120, user.js:137). */
  function InsertUserRole(s: Store, fk: bool, row: UserRoleRow): (r: Result<Store, SqlError>)
    ensures row in s.userRoles ==> r == Err(UniqueViolation)
    ensures fk && !(HasUser(s, row.email) && HasRole(s, row.roleName)) ==> r.Err?
    ensures r.Ok? <==> row !in s.userRoles && (!fk || (HasUser(s, row.email) && HasRole(s, row.roleName)))
    ensures r.Ok? ==> r.value == s.(userRoles := s.userRoles + [row])
    ensures r.Ok? && Valid(s) ==> Valid(r.value)
    ensures r.Ok? && fk && Referential(s) ==> Referential(r.value)
  {
    if row in s.userRoles then Err(UniqueViolation)
    else if fk && !(HasUser(s, row.email) && HasRole(s, row.roleName)) then Err(ForeignKeyViolation)
    else
      assert !HasKey(s.userRoles, UserRoleKey, UserRoleKey(row));
      var s' := s.(userRoles := s.userRoles + [row]);
      assert Valid(s) ==> Valid(s') by {
        if Valid(s) {
          UniqueAppend(s.userRoles, UserRoleKey, row);
        }
      }
      Ok(s')
  }

  // ---------------------------------------------------------------- DELETE

  /** `DELETE FROM Spaces WHERE name = ?` (space.js:123). Nothing cascades:
      with the pragma on, a referenced space cannot be deleted. */
  function DeleteSpace(s: Store, fk: bool, name: string): (r: Result<Store, SqlError>)
    ensures r.Err? <==> fk && HasSpace(s, name) && SpaceReferenced(s, name)
    ensures r.Err? ==> r.error == ForeignKeyViolation
    ensures r.Ok? ==> !HasSpace(r.value, name)
    ensures r.Ok? ==> forall x :: x in r.value.spaces <==> x in s.spaces && x.name != name
    ensures r.Ok? ==> r.value == s.(spaces := r.value.spaces)
    ensures r.Ok? && Valid(s) ==> Valid(r.value)
    ensures r.Ok? && fk && Referential(s) ==> Referential(r.value)
  {
    if fk && HasSpace(s, name) && SpaceReferenced(s, name) then Err(ForeignKeyViolation)
    else
      var p := (x: SpaceRow) => x.name != name;
      var s' := s.(spaces := Filter(s.spaces, p));
      assert Valid(s) ==> Valid(s') by {
        if Valid(s) {
          UniqueFilter(s.spaces, SpaceKey, p);
        }
      }
      Ok(s')
  }

  /** `DELETE FROM Roles WHERE name = ?` (role.js:108). */
  function DeleteRole(s: Store, fk: bool, name: string): (r: Result<Store, SqlError>)
    ensures r.Err? <==> fk && HasRole(s, name) && RoleReferenced(s, name)
    ensures r.Err? ==> r.error == ForeignKeyViolation
    ensures r.Ok? ==> !HasRole(r.value, name)
    ensures r.Ok? ==> forall x :: x in r.value.roles <==> x in s.roles && x.name != name
    ensures r.Ok? ==> r.value == s.(roles := r.value.roles)
    ensures r.Ok? && Valid(s) ==> Valid(r.value)
    ensures r.Ok? && fk && Referential(s) ==> Referential(r.value)
  {
    if fk && HasRole(s, name) && RoleReferenced(s, name) then Err(ForeignKeyViolation)
    else
      var p := (x: RoleRow) => x.name != name;
      var s' := s.(roles := Filter(s.roles, p));
      assert Valid(s) ==> Valid(s') by {
        if Valid(s) {
          UniqueFilter(s.roles, RoleKey, p);
        }
      }
      Ok(s')
  }

  /** `DELETE FROM Users WHERE email = ?` (user.js:125). */
  function DeleteUser(s: Store, fk: bool, email: string): (r: Result<Store, SqlError>)
    ensures r.Err? <==> fk && HasUser(s, email) && UserReferenced(s, email)
    ensures r.Err? ==> r.error == ForeignKeyViolation
    ensures r.Ok? ==> !HasUser(r.value, email)
    ensures r.Ok? ==> forall x :: x in r.value.users <==> x in s.users && x.email != email
    ensures r.Ok? ==> r.value == s.(users := r.value.users)
    ensures r.Ok? && Valid(s) ==> Valid(r.value)
    ensures r.Ok? && fk && Referential(s) ==> Referential(r.value)
  {
    if fk && HasUser(s, email) && UserReferenced(s, email) then Err(ForeignKeyViolation)
    else
      var p := (x: UserRow) => x.email != email;
      var s' := s.(users := Filter(s.users, p));
      assert Valid(s) ==> Valid(s') by {
        if Valid(s) {
          UniqueFilter(s.users, UserKey, p);
        }
      }
      Ok(s')
  }

  /** The UserRoles rows other than `(email, roleName)`, in order. */
  function WithoutLink(links: seq<UserRoleRow>, email: string, roleName: string): (r: seq<UserRoleRow>)
    ensures forall x :: x in r <==> x in links && x != UserRoleRow(email, roleName)
  {
    Filter(links, (x: UserRoleRow) => x != UserRoleRow(email, roleName))
  }

  /** `DELETE FROM UserRoles WHERE email = ? AND roleName = ?` (role.js:138,
      user.js:152). UserRoles has no dependants, so this statement cannot
      violate a constraint and its callback never receives an error. */
  function DeleteUserRole(s: Store, email: string, roleName: string): (r: Store)
    ensures UserRoleRow(email, roleName) !in r.userRoles
    ensures forall x :: x in r.userRoles <==> x in s.userRoles && x != UserRoleRow(email, roleName)
    ensures r == s.(userRoles := r.userRoles)
    ensures Valid(s) ==> Valid(r)
    ensures Referential(s) ==> Referential(r)
  {
    var s' := s.(userRoles := WithoutLink(s.userRoles, email, roleName));
    assert Valid(s) ==> Valid(s') by {
      if Valid(s) {
        UniqueFilter(s.userRoles, UserRoleKey, (x: UserRoleRow) => x != UserRoleRow(email, roleName));
      }
    }
    s'
  }

  // ---------------------------------------------------------------- UPDATE

  /** The SET list of an UPDATE: the fields of the partial object passed to
      `update`, `None` for a field the object does not hold. */
  datatype RolePatch = RolePatch(name: Option<string>)
  datatype SpacePatch = SpacePatch(name: Option<string>)
  datatype UserPatch = UserPatch(email: Option<string>, password: Option<string>)

  /** `UPDATE Roles SET name = $name WHERE name = $qname` (role.js:91-93).
      An empty SET list is not valid SQL. Only a matched row is checked
      against the key constraints; a key change is refused while child rows
      point at the old key and the pragma is on. */
  function UpdateRoles(s: Store, fk: bool, q: string, patch: RolePatch): (r: Result<Store, SqlError>)
    ensures patch.name.None? ==> r == Err(SyntaxError)
    ensures patch.name.Some? && !HasRole(s, q) ==> r == Ok(s)
    ensures r.Ok? <==> (patch.name.Some? &&
      var n := patch.name.value;
      !HasRole(s, q) || n == q || (!HasRole(s, n) && !(fk && RoleReferenced(s, q))))
    ensures r.Ok? ==> r.value == s.(roles := r.value.roles)
    ensures r.Ok? ==> |r.value.roles| == |s.roles|
    ensures r.Ok? ==> forall x :: x in r.value.roles <==>
      (x in s.roles && x.name != q) || (HasRole(s, q) && x == RoleRow(patch.name.value))
    ensures r.Ok? && Valid(s) && HasRole(s, q) ==> HasRole(r.value, patch.name.value)
    ensures r.Ok? && patch.name.value != q ==> !HasRole(r.value, q)
    ensures r.Ok? && Valid(s) ==>
      Valid(r.value) && forall k :: k != q && k != patch.name.value ==> (HasRole(r.value, k) <==> HasRole(s, k))
    ensures r.Ok? && fk && Valid(s) && Referential(s) ==> Referential(r.value)
  {
    if patch.name.None? then Err(SyntaxError)
    else
      var n := patch.name.value;
      if !HasRole(s, q) then Ok(s)
      else if n != q && HasRole(s, n) then Err(UniqueViolation)
      else if fk && n != q && RoleReferenced(s, q) then Err(ForeignKeyViolation)
      else
        var hit := (x: RoleRow) => x.name == q;
        var f := (x: RoleRow) => RoleRow(n);
        var s' := s.(roles := MapWhere(s.roles, hit, f));
        MapWhereMembers(s.roles, hit, f);
        assert Valid(s) ==> Valid(s') && HasRole(s', n) && forall k :: k != q && k != n ==> (HasRole(s', k) <==> HasRole(s, k)) by {
          if Valid(s) {
            MapWhereRekey(s.roles, RoleKey, hit, f, q, n);
          }
        }
        Ok(s')
  }

  /** `UPDATE Spaces SET name = $name WHERE name = $qname` (space.js:101-108),
      with the placeholder named after the column as the bound parameters
      are (see the note in `Space.Update`). */
  function UpdateSpaces(s: Store, fk: bool, q: string, patch: SpacePatch): (r: Result<Store, SqlError>)
    ensures patch.name.None? ==> r == Err(SyntaxError)
    ensures patch.name.Some? && !HasSpace(s, q) ==> r == Ok(s)
    ensures r.Ok? <==> (patch.name.Some? &&
      var n := patch.name.value;
      !HasSpace(s, q) || n == q || (!HasSpace(s, n) && !(fk && SpaceReferenced(s, q))))
    ensures r.Ok? ==> r.value == s.(spaces := r.value.spaces)
    ensures r.Ok? ==> |r.value.spaces| == |s.spaces|
    ensures r.Ok? ==> forall x :: x in r.value.spaces <==>
      (x in s.spaces && x.name != q) || (HasSpace(s, q) && x == SpaceRow(patch.name.value))
    ensures r.Ok? && Valid(s) && HasSpace(s, q) ==> HasSpace(r.value, patch.name.value)
    ensures r.Ok? && patch.name.value != q ==> !HasSpace(r.value, q)
    ensures r.Ok? && Valid(s) ==>
      Valid(r.value) && forall k :: k != q && k != patch.name.value ==> (HasSpace(r.value, k) <==> HasSpace(s, k))
    ensures r.Ok? && fk && Valid(s) && Referential(s) ==> Referential(r.value)
  {
    if patch.name.None? then Err(SyntaxError)
    else
      var n := patch.name.value;
      if !HasSpace(s, q) then Ok(s)
      else if n != q && HasSpace(s, n) then Err(UniqueViolation)
      else if fk && n != q && SpaceReferenced(s, q) then Err(ForeignKeyViolation)
      else
        var hit := (x: SpaceRow) => x.name == q;
        var f := (x: SpaceRow) => SpaceRow(n);
        var s' := s.(spaces := MapWhere(s.spaces, hit, f));
        MapWhereMembers(s.spaces, hit, f);
        assert Valid(s) ==> Valid(s') && HasSpace(s', n) && forall k :: k != q && k != n ==> (HasSpace(s', k) <==> HasSpace(s, k)) by {
          if Valid(s) {
            MapWhereRekey(s.spaces, SpaceKey, hit, f, q, n);
          }
        }
        Ok(s')
  }

  /** `UPDATE Users SET email = $email, password = $password WHERE email = $eq`
      (user.js:108-110), listing only the fields the patch holds. */
  function UpdateUsers(s: Store, fk: bool, q: string, patch: UserPatch): (r: Result<Store, SqlError>)
    ensures patch.email.None? && patch.password.None? ==> r == Err(SyntaxError)
    ensures (patch.email.Some? || patch.password.Some?) && !HasUser(s, q) ==> r == Ok(s)
    ensures r.Ok? <==> ((patch.email.Some? || patch.password.Some?) &&
      var n := patch.email.GetOr(q);
      !HasUser(s, q) || n == q || (!HasUser(s, n) && !(fk && UserReferenced(s, q))))
    ensures r.Ok? ==> r.value == s.(users := r.value.users)
    ensures r.Ok? ==> |r.value.users| == |s.users|
    ensures r.Ok? ==> forall x :: x in r.value.users <==>
      (x in s.users && x.email != q) ||
      exists y :: y in s.users && y.email == q && x == UserRow(patch.email.GetOr(q), patch.password.GetOr(y.password))
    ensures r.Ok? && Valid(s) && HasUser(s, q) ==> HasUser(r.value, patch.email.GetOr(q))
    ensures r.Ok? && patch.email.GetOr(q) != q ==> !HasUser(r.value, q)
    ensures r.Ok? && Valid(s) ==>
      Valid(r.value) && forall k :: k != q && k != patch.email.GetOr(q) ==> (HasUser(r.value, k) <==> HasUser(s, k))
    ensures r.Ok? && fk && Valid(s) && Referential(s) ==> Referential(r.value)
  {
    if patch.email.None? && patch.password.None? then Err(SyntaxError)
    else if !HasUser(s, q) then Ok(s)
    else
      var n := patch.email.GetOr(q);
      if n != q && HasUser(s, n) then Err(UniqueViolation)
      else if fk && n != q && UserReferenced(s, q) then Err(ForeignKeyViolation)
      else
        Ok(s.(users := RewriteUsers(s.users, q, n, patch.password)))
  }

  /** The Users rows after `SET email = n[, password = pw] WHERE email = q`:
      the matched rows are rewritten in place, the others kept. */
  function RewriteUsers(users: seq<UserRow>, q: string, n: string, pw: Option<string>): (t: seq<UserRow>)
    ensures |t| == |users|
    ensures forall x :: x in t <==>
      (x in users && x.email != q) ||
      exists y :: y in users && y.email == q && x == UserRow(n, pw.GetOr(y.password))
    ensures n != q ==> !HasKey(t, UserKey, q)
    ensures UniqueBy(users, UserKey) && (n == q || !HasKey(users, UserKey, n)) ==>
      && UniqueBy(t, UserKey)
      && (HasKey(users, UserKey, q) ==> HasKey(t, UserKey, n))
      && forall k :: k != q && k != n ==> (HasKey(t, UserKey, k) <==> HasKey(users, UserKey, k))
  {
    var hit := (x: UserRow) => x.email == q;
    var f := (x: UserRow) => UserRow(n, pw.GetOr(x.password));
    MapWhereMembers(users, hit, f);
    assert UniqueBy(users, UserKey) && (n == q || !HasKey(users, UserKey, n)) ==>
      && UniqueBy(MapWhere(users, hit, f), UserKey)
      && (HasKey(users, UserKey, q) ==> HasKey(MapWhere(users, hit, f), UserKey, n))
      && forall k :: k != q && k != n ==> (HasKey(MapWhere(users, hit, f), UserKey, k) <==> HasKey(users, UserKey, k)) by {
      if UniqueBy(users, UserKey) && (n == q || !HasKey(users, UserKey, n)) {
        MapWhereRekey(users, UserKey, hit, f, q, n);
      }
    }
    MapWhere(users, hit, f)
  }
}

=== FILE: user.dfy ===
/** The User repository of apps/server/db/user.js.

    An instance is its `data` mirror (`IUserRl`): the user's columns and the
    roles it holds. Every instance method issues exactly one statement and
    patches the mirror only when the statement's callback sees no error; the
    model returns the new store with the patched (or untouched) mirror. */
module User {
  import opened Wrappers
  import opened Seqs
  import opened Aggregate
  import opened Store

  /** `IUserRl`: a user with the `{ name }` objects of its roles. */
  datatype UserData = UserData(email: string, password: string, roles: seq<RoleObj>)

  /** The `{ name: Roles.name }` object of one membership row: null when the
      LEFT JOIN finds no Roles row for the membership's role name. */
  function RoleObjFor(roles: seq<RoleRow>, name: string): (o: RoleObj)
    ensures o.name.Some? <==> HasKey(roles, RoleKey, name)
    ensures o.name.Some? ==> o.name.value == name
  {
    if HasKey(roles, RoleKey, name) then RoleObj(Some(name)) else RolePlaceholder
  }

  /** The objects `json_group_array` collects for `email` (user.js:46-55):
      one per UserRoles row of that email, in insertion order (see
      `Store`). */
  function JoinedRoles(roles: seq<RoleRow>, links: seq<UserRoleRow>, email: string): (objs: seq<RoleObj>)
    ensures |objs| == 0 <==> forall l :: l in links ==> l.email != email
    ensures forall o :: o in objs && o.name.Some? ==>
      UserRoleRow(email, o.name.value) in links && HasKey(roles, RoleKey, o.name.value)
    ensures forall l :: l in links && l.email == email && HasKey(roles, RoleKey, l.roleName) ==>
      RoleObj(Some(l.roleName)) in objs
    decreases |links|
  {
    if |links| == 0 then []
    else
      assert forall l :: l in links <==> l == links[0] || l in links[1..];
      (if links[0].email == email then [RoleObjFor(roles, links[0].roleName)] else [])
        + JoinedRoles(roles, links[1..], email)
  }

  /** One step of `JoinedRoles`: the first membership row, then the rest. */
  lemma JoinedRolesCons(roles: seq<RoleRow>, l: UserRoleRow, rest: seq<UserRoleRow>, email: string)
    ensures JoinedRoles(roles, [l] + rest, email)
         == (if l.email == email then [RoleObjFor(roles, l.roleName)] else []) + JoinedRoles(roles, rest, email)
  {
    assert ([l] + rest)[0] == l && ([l] + rest)[1..] == rest;
  }

  lemma {:induction false} JoinedRolesConcat(roles: seq<RoleRow>, a: seq<UserRoleRow>, b: seq<UserRoleRow>, email: string)
    ensures JoinedRoles(roles, a + b, email) == JoinedRoles(roles, a, email) + JoinedRoles(roles, b, email)
    decreases |a|
  {
    if |a| == 0 {
      assert a + b == b;
    } else {
      var rest := a[1..];
      assert a == [a[0]] + rest && a + b == [a[0]] + (rest + b);
      JoinedRolesCons(roles, a[0], rest, email);
      JoinedRolesCons(roles, a[0], rest + b, email);
      JoinedRolesConcat(roles, rest, b, email);
      ConcatRegroup(if a[0].email == email then [RoleObjFor(roles, a[0].roleName)] else [],
        JoinedRoles(roles, rest, email), JoinedRoles(roles, b, email));
    }
  }

  /** The decoded role list of `email`, placeholder and dangling rows removed
      (user.js:63). */
  function RolesOf(s: Store, email: string): (rs: seq<RoleObj>)
    ensures rs == Relational(JoinedRoles(s.roles, s.userRoles, email), RoleName)
  {
    RelationalDropsPlaceholder(JoinedRoles(s.roles, s.userRoles, email), RolePlaceholder, RoleName);
    Relational(Aggregated(JoinedRoles(s.roles, s.userRoles, email), RolePlaceholder), RoleName)
  }

  /** `User.findByEmail` (user.js:40-68). The query is written with an
      unqualified `email`, which both Users and UserRoles hold, and line 63
      reads `row` where the callback's parameter is `r`; the model is the
      query with `Users.email` and the list decoded from `r` (see
      `Findings.UserFindByEmailAsWritten`). When no row comes back the promise
      resolves to null; the callback then goes on to dereference the missing
      row, an exception outside the promise that the model leaves out. */
  function FindByEmail(s: Store, email: string): (r: Option<UserData>)
    ensures r.None? <==> !HasUser(s, email)
    ensures r.Some? ==> r.value.email == email && UserRow(email, r.value.password) in s.users
    ensures r.Some? ==> forall o :: o in r.value.roles ==>
      o.name.Some? && UserRoleRow(email, o.name.value) in s.userRoles && HasRole(s, o.name.value)
    ensures r.Some? ==> forall l :: l in s.userRoles && l.email == email && HasRole(s, l.roleName) ==>
      RoleObj(Some(l.roleName)) in r.value.roles
    ensures r.Some? && !UserReferenced(s, email) ==> r.value.roles == []
  {
    match FindBy(s.users, UserKey, email)
    case None => None
    case Some(u) =>
      var rs := RolesOf(s, email);
      assert !UserReferenced(s, email) ==> rs == [] by {
        if !UserReferenced(s, email) {
          assert JoinedRoles(s.roles, s.userRoles, email) == [];
        }
      }
      Some(UserData(u.email, u.password, rs))
  }

  /** `User.create` (user.js:84-93): one INSERT, no uniqueness pre-check and
      no hashing. On an error the first `resolve(null)` wins. */
  function Create(s: Store, email: string, password: string): (r: Step<Option<UserData>>)
    ensures r.out.None? <==> HasUser(s, email)
    ensures r.out.None? ==> r.store == s
    ensures r.out.Some? ==> r.out.value == UserData(email, password, [])
    ensures r.out.Some? ==> r.store == s.(users := s.users + [UserRow(email, password)])
    ensures Valid(s) ==> Valid(r.store)
    ensures Referential(s) ==> Referential(r.store)
  {
    match InsertUser(s, email, password)
    case Err(_) => Step(s, None)
    case Ok(s') => Step(s', Some(UserData(email, password, [])))
  }

  /** The instance returned by a successful `create` is what a later
      `findByEmail` loads, in a store whose references hold: there no
      membership row names an email that has no user. With the pragma off
      that can fail; see `DeleteThenCreateInheritsRoles`. */
  lemma CreateThenFind(s: Store, email: string, password: string)
    requires Valid(s) && Referential(s)
    requires Create(s, email, password).out.Some?
    ensures FindByEmail(Create(s, email, password).store, email) == Create(s, email, password).out
  {
    var s' := Create(s, email, password).store;
    assert UserRow(email, password) in s'.users;
    FindByUnique(s'.users, UserKey, UserRow(email, password));
    assert !UserReferenced(s', email);
  }

  /** With the pragma off, deleting a user keeps its memberships, and a user
      created again under the same email loads with them although `create`
      returned it without roles. */
  lemma DeleteThenCreateInheritsRoles()
    ensures var s := Empty.(roles := [RoleRow("admin")], users := [UserRow("a@x", "pw")],
                            userRoles := [UserRoleRow("a@x", "admin")]);
      var s1 := Delete(s, false, UserData("a@x", "pw", [RoleObj(Some("admin"))])).store;
      var c := Create(s1, "a@x", "pw2");
      && c.out == Some(UserData("a@x", "pw2", []))
      && FindByEmail(c.store, "a@x") == Some(UserData("a@x", "pw2", [RoleObj(Some("admin"))]))
  {
    var s := Empty.(roles := [RoleRow("admin")], users := [UserRow("a@x", "pw")],
                    userRoles := [UserRoleRow("a@x", "admin")]);
    var s1 := Delete(s, false, UserData("a@x", "pw", [RoleObj(Some("admin"))])).store;
    assert s1.users == [] by {
      forall u | u in s1.users ensures false { }
    }
    var c := Create(s1, "a@x", "pw2");
    assert c.store.users == [UserRow("a@x", "pw2")];
    assert HasRole(c.store, "admin") by { assert RoleRow("admin") in c.store.roles; }
    var links := c.store.userRoles;
    assert links == [UserRoleRow("a@x", "admin")];
    assert links[1..] == [];
    assert JoinedRoles(c.store.roles, links, "a@x") == [RoleObj(Some("admin"))];
    RelationalAllPresent([RoleObj(Some("admin"))], RoleName);
    FindByUnique(c.store.users, UserKey, UserRow("a@x", "pw2"));
  }

  /** The mirror after `update` copied `patch`'s fields into it. */
  function Patched(user: UserData, patch: UserPatch): (u: UserData)
    ensures u.roles == user.roles
    ensures patch.email.Some? ==> u.email == patch.email.value
    ensures patch.email.None? ==> u.email == user.email
    ensures patch.password.Some? ==> u.password == patch.password.value
    ensures patch.password.None? ==> u.password == user.password
  {
    UserData(patch.email.GetOr(user.email), patch.password.GetOr(user.password), user.roles)
  }

  /** `user.update(data)` (user.js:103-116). With no fields the statement
      (`UPDATE Users SET  WHERE ...`) does not parse, so nothing changes;
      the early `resolve()` has no `return` but settles the promise first. */
  function Update(s: Store, fk: bool, user: UserData, patch: UserPatch): (r: Step<UserData>)
    ensures patch == UserPatch(None, None) ==> r == Step(s, user)
    ensures r.store == s.(users := r.store.users)
    ensures
      var n := patch.email.GetOr(user.email);
      var applied := (patch.email.Some? || patch.password.Some?) &&
        (!HasUser(s, user.email) || n == user.email || (!HasUser(s, n) && !(fk && UserReferenced(s, user.email))));
      && (applied ==> r.out == Patched(user, patch))
      && (!applied ==> r == Step(s, user))
      && (applied ==> forall x :: x in r.store.users <==>
            (x in s.users && x.email != user.email) ||
            exists y :: y in s.users && y.email == user.email && x == UserRow(r.out.email, patch.password.GetOr(y.password)))
      && (applied && HasUser(s, user.email) && patch.password.Some? ==>
            UserRow(r.out.email, patch.password.value) in r.store.users)
    ensures Valid(s) && HasUser(s, user.email) && r.out != user ==> HasUser(r.store, r.out.email)
    ensures r.out.email != user.email ==> !HasUser(r.store, user.email)
    ensures Valid(s) ==> Valid(r.store)
    ensures fk && Valid(s) && Referential(s) ==> Referential(r.store)
  {
    match UpdateUsers(s, fk, user.email, patch)
    case Err(_) => Step(s, user)
    case Ok(s') => Step(s', Patched(user, patch))
  }

  /** An instance that matched the store still matches it after a successful
      `update`, provided the email is kept or the pragma guards the key. */
  lemma UpdateThenFind(s: Store, fk: bool, user: UserData, patch: UserPatch)
    requires Valid(s) && FindByEmail(s, user.email) == Some(user)
    requires patch.email.GetOr(user.email) == user.email || (fk && Referential(s))
    requires Update(s, fk, user, patch).store != s || Update(s, fk, user, patch).out != user
    ensures FindByEmail(Update(s, fk, user, patch).store, Update(s, fk, user, patch).out.email)
         == Some(Update(s, fk, user, patch).out)
  {
    var q := user.email;
    var n := patch.email.GetOr(q);
    var r := Update(s, fk, user, patch);
    var s' := r.store;
    var row := UserRow(n, patch.password.GetOr(user.password));
    assert UserRow(q, user.password) in s.users;
    assert row in s'.users;
    FindByUnique(s'.users, UserKey, row);
    if n != q {
      assert !UserReferenced(s, q);
      assert !HasUser(s, n);
      assert !UserReferenced(s', n);
    }
  }

  /** Why `UpdateThenFind` asks for the pragma when the email changes:
      with it off, the memberships stay on the old email, so the renamed
      copy keeps its roles while a reload under the new email has none. */
  lemma UpdateEmailStrandsRoles()
    ensures var s := Empty.(roles := [RoleRow("admin")], users := [UserRow("u", "pw")],
                            userRoles := [UserRoleRow("u", "admin")]);
      var r := Update(s, false, UserData("u", "pw", [RoleObj(Some("admin"))]), UserPatch(Some("v"), None));
      && r.out == UserData("v", "pw", [RoleObj(Some("admin"))])
      && FindByEmail(r.store, "v") == Some(UserData("v", "pw", []))
  {
    var s := Empty.(roles := [RoleRow("admin")], users := [UserRow("u", "pw")],
                    userRoles := [UserRoleRow("u", "admin")]);
    assert HasUser(s, "u") by { assert UserRow("u", "pw") in s.users; }
    assert !HasUser(s, "v");
    var r := Update(s, false, UserData("u", "pw", [RoleObj(Some("admin"))]), UserPatch(Some("v"), None));
    assert r.store.users == [UserRow("v", "pw")];
    assert !UserReferenced(r.store, "v");
  }

  /** `user.delete()` (user.js:123-127): resolves with the callback's error,
      null on success. UserRoles rows are not touched. */
  function Delete(s: Store, fk: bool, user: UserData): (r: Step<Option<SqlError>>)
    ensures r.out.Some? <==> fk && HasUser(s, user.email) && UserReferenced(s, user.email)
    ensures r.out.Some? ==> r.store == s
    ensures r.out.None? ==> !HasUser(r.store, user.email)
    ensures r.out.None? ==> forall u :: u in r.store.users <==> u in s.users && u.email != user.email
    ensures r.store == s.(users := r.store.users)
    ensures Valid(s) ==> Valid(r.store)
    ensures fk && Referential(s) ==> Referential(r.store)
  {
    match DeleteUser(s, fk, user.email)
    case Err(e) => Step(s, Some(e))
    case Ok(s') => Step(s', None)
  }

  /** `user.addRole(roleName)` (user.js:135-142). */
  function AddRole(s: Store, fk: bool, user: UserData, roleName: string): (r: Step<UserData>)
    ensures
      var link := UserRoleRow(user.email, roleName);
      var ok := link !in s.userRoles && (!fk || (HasUser(s, user.email) && HasRole(s, roleName)));
      && (ok ==> r.store == s.(userRoles := s.userRoles + [link]))
      && (ok ==> r.out == user.(roles := user.roles + [RoleObj(Some(roleName))]))
      && (!ok ==> r == Step(s, user))
    ensures Valid(s) ==> Valid(r.store)
    ensures fk && Referential(s) ==> Referential(r.store)
  {
    match InsertUserRole(s, fk, UserRoleRow(user.email, roleName))
    case Err(_) => Step(s, user)
    case Ok(s') => Step(s', user.(roles := user.roles + [RoleObj(Some(roleName))]))
  }

  /** Two mirrors of one user that agree up to the order of the role list.
      The aggregate query has no ORDER BY, so a fresh load may list the
      roles in another order than the one they were added in. */
  predicate SameUpToOrder(a: UserData, b: UserData) {
    a.email == b.email && a.password == b.password && multiset(a.roles) == multiset(b.roles)
  }

  /** After a successful `addRole` of an existing role, the mirror holds
      what a fresh load returns, up to the order of the roles. */
  lemma AddRoleThenFind(s: Store, fk: bool, user: UserData, roleName: string)
    requires FindByEmail(s, user.email) == Some(user)
    requires HasRole(s, roleName)
    requires AddRole(s, fk, user, roleName).store != s
    ensures var found := FindByEmail(AddRole(s, fk, user, roleName).store, user.email);
      found.Some? && SameUpToOrder(found.value, AddRole(s, fk, user, roleName).out)
  {
    var link := UserRoleRow(user.email, roleName);
    var s' := AddRole(s, fk, user, roleName).store;
    JoinedRolesConcat(s.roles, s.userRoles, [link], user.email);
    assert JoinedRoles(s.roles, [link], user.email) == [RoleObj(Some(roleName))];
    RelationalConcat(JoinedRoles(s.roles, s.userRoles, user.email), [RoleObj(Some(roleName))], RoleName);
    RelationalAllPresent([RoleObj(Some(roleName))], RoleName);
    assert FindByEmail(s', user.email) == Some(AddRole(s, fk, user, roleName).out);
  }

  /** Why `AddRoleThenFind` asks for the role to exist: with the pragma off,
      linking a role that does not exist succeeds and the copy lists it,
      while a reload drops the dangling link. */
  lemma AddMissingRoleDropsOnReload()
    ensures var s := Empty.(users := [UserRow("u", "pw")]);
      var r := AddRole(s, false, UserData("u", "pw", []), "ghost");
      && r.out.roles == [RoleObj(Some("ghost"))]
      && FindByEmail(r.store, "u") == Some(UserData("u", "pw", []))
  {
    var s := Empty.(users := [UserRow("u", "pw")]);
    var r := AddRole(s, false, UserData("u", "pw", []), "ghost");
    assert UserRow("u", "pw") in r.store.users;
    FindByUnique(r.store.users, UserKey, UserRow("u", "pw"));
    assert FindByEmail(r.store, "u").Some?;
  }

  /** The role list without the entries named `name`, as both
      `user.removeRole` (user.js:153) and `role.removeUser` (role.js:141)
      filter it. */
  function DropRole(roles: seq<RoleObj>, name: string): (r: seq<RoleObj>)
    ensures forall o :: o in r <==> o in roles && o.name != Some(name)
    ensures forall o :: multiset(r)[o] == if o.name != Some(name) then multiset(roles)[o] else 0
    ensures SubseqOf(r, roles)
  {
    FilterIsSubseq(roles, (o: RoleObj) => o.name != Some(name));
    assert forall o :: multiset(Filter(roles, (x: RoleObj) => x.name != Some(name)))[o]
                       == if o.name != Some(name) then multiset(roles)[o] else 0 by {
      forall o ensures multiset(Filter(roles, (x: RoleObj) => x.name != Some(name)))[o]
                       == if o.name != Some(name) then multiset(roles)[o] else 0 {
        FilterMultiplicity(roles, (x: RoleObj) => x.name != Some(name), o);
      }
    }
    Filter(roles, (o: RoleObj) => o.name != Some(name))
  }

  lemma DropRoleConcat(a: seq<RoleObj>, b: seq<RoleObj>, name: string)
    ensures DropRole(a + b, name) == DropRole(a, name) + DropRole(b, name)
  {
    FilterConcat(a, b, (o: RoleObj) => o.name != Some(name));
  }

  /** `user.removeRole(roleName)` (user.js:150-157). */
  function RemoveRole(s: Store, user: UserData, roleName: string): (r: Step<UserData>)
    ensures UserRoleRow(user.email, roleName) !in r.store.userRoles
    ensures forall l :: l in r.store.userRoles <==> l in s.userRoles && l != UserRoleRow(user.email, roleName)
    ensures r.store == s.(userRoles := r.store.userRoles)
    ensures r.out.email == user.email && r.out.password == user.password
    ensures forall o :: o in r.out.roles <==> o in user.roles && o.name != Some(roleName)
    ensures forall o :: multiset(r.out.roles)[o] == if o.name != Some(roleName) then multiset(user.roles)[o] else 0
    ensures SubseqOf(r.out.roles, user.roles)
    ensures Valid(s) ==> Valid(r.store)
    ensures Referential(s) ==> Referential(r.store)
  {
    Step(DeleteUserRole(s, user.email, roleName), user.(roles := DropRole(user.roles, roleName)))
  }

  /** Deleting the membership `(email, name)` removes from the decoded role
      list exactly the entries named `name`. */
  lemma {:induction false} JoinedRolesWithoutLink(roles: seq<RoleRow>, links: seq<UserRoleRow>, email: string, name: string)
    ensures Relational(JoinedRoles(roles, WithoutLink(links, email, name), email), RoleName)
         == DropRole(Relational(JoinedRoles(roles, links, email), RoleName), name)
    decreases |links|
  {
    var p := (x: UserRoleRow) => x != UserRoleRow(email, name);
    if |links| == 0 {
      assert WithoutLink(links, email, name) == [];
    } else {
      var l := links[0];
      var rest := links[1..];
      JoinedRolesWithoutLink(roles, rest, email, name);
      var head := if p(l) then [l] else [];
      assert links == [l] + rest;
      assert WithoutLink(links, email, name) == head + WithoutLink(rest, email, name);
      JoinedRolesConcat(roles, head, WithoutLink(rest, email, name), email);
      JoinedRolesConcat(roles, [l], rest, email);
      var oh := JoinedRoles(roles, [l], email);
      var rh := JoinedRoles(roles, rest, email);
      RelationalConcat(oh, rh, RoleName);
      DropRoleConcat(Relational(oh, RoleName), Relational(rh, RoleName), name);
      RelationalConcat(JoinedRoles(roles, head, email), JoinedRoles(roles, WithoutLink(rest, email, name), email), RoleName);
      if l.email == email {
        var o := RoleObjFor(roles, l.roleName);
        assert oh == [o];
        if l.roleName == name {
          assert Relational(JoinedRoles(roles, head, email), RoleName) == [];
          RelationalSingleton(o, RoleName);
          FilterSingleton(o, (x: RoleObj) => x.name != Some(name));
        } else {
          assert head == [l];
          if o.name.Some? {
            RelationalAllPresent(oh, RoleName);
            assert DropRole(oh, name) == oh by {
              FilterAllPass(oh, (x: RoleObj) => x.name != Some(name));
            }
          } else {
            RelationalSingleton(o, RoleName);
          }
        }
      } else {
        assert oh == [];
        assert JoinedRoles(roles, head, email) == [];
      }
    }
  }

  /** After `removeRole`, the mirror equals a fresh load. */
  lemma RemoveRoleThenFind(s: Store, user: UserData, roleName: string)
    requires FindByEmail(s, user.email) == Some(user)
    ensures FindByEmail(RemoveRole(s, user, roleName).store, user.email) == Some(RemoveRole(s, user, roleName).out)
  {
    JoinedRolesWithoutLink(s.roles, s.userRoles, user.email, roleName);
  }
}

=== FILE: wrappers.dfy ===
/** Absence and failure values: the `null` a lookup resolves to, and the
    error a store statement hands to its callback. */
module Wrappers {

  /** A value that may be missing; `None` plays the role of SQL/JSON `null`. */
  datatype Option<T> = None | Some(value: T) {

    /** The wrapped value, or `default` when there is none. */
    function GetOr(default: T): T {
      match this
      case Some(v) => v
      case None => default
    }
  }

  /** The outcome of one store statement: the new state, or the error the
      statement's callback receives. */
  datatype Result<T, E> = Ok(value: T) | Err(error: E)
}
